=== FILE: README.md ===
# ez-smtp client core in Dafny

A model of the ez-smtp client library. The library sends email over SMTP through an
abstract adapter. It has five parts:

- a session handshake: connect, STARTTLS, HELO, AUTH PLAIN with base64 credentials;
- a mail transaction per message: MAIL FROM, one RCPT TO per recipient, DATA, the payload;
- QUIT;
- a fluent builder that collects one message;
- the `Smtp` facade, which owns the credentials and the builder.

The model is a set of pure functions. Each protocol operation takes an oracle that
stands in for the adapter. The oracle is a script of success or failure outcomes, one
per fallible adapter call, plus the host name the adapter reports. An operation
returns a `Run`:

- the adapter calls made, in order;
- the status: `Ok`, or `Error` naming the adapter call that failed;
- the oracle left for the next operation on the same connection.

Modules, bottom up:

- `Seqs`: prefix and concatenation facts shared by traces and strings.
- `Adapter`: adapter calls, the oracle, and `Exec`. `Exec` is the fail-fast chain of
  checked calls that every engine operation is built from.
- `Base64`: the two-phase encoder (Boost's unpadded sextet stream, then the `=`
  padding loop). It is tied to an RFC 4648 section 4 reference encoder and to a decoder.
- `Message`: recipients, sender, the builder state, its setters, and `Reset`.
- `Format`: the DATA payload, with the recipient header groups as the C++ writes them.
- `Session`: `StartTls`, `Connect` and `Quit`.
- `Transaction`: `SendBatch` and the single-shot `Send`.
- `Smtp`: the facade (constructor, `NewEmail`, batch `Connect` and `Disconnect`) and
  two-message batch use.
- `Scenarios`: the library's own usage scenarios, restated over the model.

The model keeps these behaviours of the code as written:

- The From line renders as `address <name>`, the other way round from recipients.
- Every recipient entry is followed by CRLF, and the next entry is preceded by ", ".
  So a header group with several entries spans several lines.
- Blind recipients get a `Bcc:` header inside the payload.
- The body is not dot-stuffed.
- The builder is emptied only by `NewEmail`, not after a send.
- A failed TCP connect returns without calling Disconnect.

A single-shot `Send` therefore disconnects exactly once only when the TCP connect
succeeded. When the TCP connect fails it makes no Disconnect call at all. The doc
comment of `Send` (smtp.h:138) says it "connects to the receiving server, sends the
email, and disconnects". The code does not disconnect on this path: smtp.cc:98
returns before any Disconnect. The model follows the code.

The batch `Connect` has the same gap. Its doc comment (smtp.h:264-266) says that
after a failure it disconnects automatically. That holds for every failure after the
TCP connect: the handshake is cut at the failed call, then Disconnect follows. A failed
TCP connect itself returns at smtp.cc:98 with no Disconnect, and the model does the same.

## Model

| member | source | states |
|---|---|---|
| Adapter.Exec | smtp.cc:79-94 | A chain of checked adapter calls stops at the first failure. The trace is a prefix of the steps and consumes exactly the outcomes of its fallible calls. On success every step ran and every outcome it needed was a success. On failure the trace ends with a fallible call whose outcome was the first rejection, and that call is the returned error. |
| Adapter.ExecAllPass | smtp.cc:79-94 | The chain succeeds if and only if every outcome its fallible steps need is a success. |
| Adapter.ExecStopsAtFirstRejection | smtp.cc:79-94 | If outcome j is the first rejection, the chain fails, and its trace holds exactly j + 1 fallible calls. |
| Adapter.ExecCutsAt | smtp.cc:184-209 | For steps that can all fail, a first rejection at j cuts the trace right after step j, and step j is the returned error. |
| Adapter.FailFastCutsAroundSilent | smtp.cc:79-94 | For steps that can all fail except one status-less call at index h, a first rejection of outcome j cuts the run right after the call that consumed it: step j before h, step j + 1 after it. That call's error is returned. |
| Base64.Digits | smtp.cc:66-70 | The unpadded stream has 4·ceil(n/3) − pad(n) characters, all from the base64 alphabet. |
| Base64.PadToQuantum | smtp.cc:71-75 | The padding loop keeps its input as a prefix and appends exactly (3 − n mod 3) mod 3 '=' characters. |
| Base64.Encode | smtp.cc:64-77 | Base64Encode's output has 4·ceil(n/3) characters. The last pad(n) characters are '=' and every character before them is in the alphabet. |
| Base64.EncodeIsRfc4648 | smtp.cc:64-77 | The two-phase encoder equals the quantum-by-quantum encoding of section 4 of RFC 4648 on every input. |
| Base64.DecodeEncode | smtp.cc:64-77 | Decoding the encoder's output gives back the input octets, so the encoding loses nothing. |
| Base64.EncodeInjective | smtp.cc:89-90 | Two octet strings have the same encoding if and only if they are equal, so distinct credentials give distinct AUTH PLAIN lines. |
| Base64.EncodeFirst | smtp.cc:64-70 | The first character encodes the top six bits of the first octet. |
| Base64.EncodeCredentialExample | smtp_test.cc:71 | NUL "username" NUL "password" encodes to "AHVzZXJuYW1lAHBhc3N3b3Jk". |
| Message.OrdinalInjective | smtp.h:101 | The three recipient types have three distinct enum values, so comparing the integers, as the header writer does, compares the types. |
| Message.DefaultRecipient | smtp.h:103-108 | A default-constructed recipient has empty address and name, and type Primary, whose value is 0. |
| Message.NewBuilder | smtp.h:149-152 | The builder's constructor stores the credentials and leaves every message field empty. |
| Message.SetSubject | smtp.h:154-157 | Sets the subject and leaves every other field, credentials included, as it was. |
| Message.SetBody | smtp.h:159-162 | Sets the body; nothing else changes. |
| Message.SetSender | smtp.h:164-169 | Overwrites both sender fields (the name defaults to empty); nothing else changes. |
| Message.SetContentType | smtp.h:171-174 | Sets the content type; nothing else changes. |
| Message.AddRecipient | smtp.h:176-184 | Appends exactly one recipient at the end with the given address, name (default empty) and type (default Primary), and keeps the earlier recipients in order. Nothing else changes. |
| Message.Reset | smtp.h:190-198 | Empties subject, body, both sender fields, content type and recipients, and keeps the credentials. |
| Message.ResetIsFresh | smtp.h:190-198 | A reset builder equals the one the constructor makes from the same credentials, and a second reset changes nothing. |
| Message.Apply | smtp.h:154-184 | A chain of setter calls never changes the credentials. It adds one recipient per AddRecipient call and keeps the earlier recipients as a prefix. |
| Message.ResetForgetsEdits | smtp.h:190-198 | Whatever setters ran before, Reset leaves the same builder. |
| Format.WriteRecipient | smtp.cc:33-40 | The From line is `field: address` plus CRLF when the name is empty. Otherwise it is `field: address <name>` plus CRLF: the address comes first and the name follows in angle brackets. The short form appears if and only if the name is empty. |
| Format.WriteRecipientsIsGroup | smtp.cc:42-62 | The C++ loop writes exactly the reference rendering: the recipients of that type, filtered in insertion order, as one group. |
| Format.WriteRecipientsShape | smtp.cc:42-62 | A group is empty if and only if no recipient has that type. Otherwise it opens with `field: ` and ends with CRLF. |
| Format.SelectEmpty | smtp.cc:46-49 | The filter keeps nothing if and only if no recipient has the type. |
| Format.SelectAppend | smtp.cc:46-49 | Filtering after one more recipient appends that recipient exactly when it has the type. |
| Format.WriteRecipientsAppend | smtp.cc:42-62 | A new recipient changes only its own type's group. It opens the group as `field: entry` plus CRLF when it is the first of its type. Otherwise it adds `, entry` plus CRLF after the existing group. |
| Format.GroupShape | smtp.cc:50-60 | A rendered group is empty if and only if it has no entries. Otherwise it starts with `field: ` and ends with CRLF. |
| Format.PayloadEnds | smtp.cc:195-205 | The payload opens with `From: ` and the sender address. It closes with the Subject line, a blank line, the body and the end-of-data marker. |
| Format.PayloadLayout | smtp.cc:195-205 | The payload is the From line, then the To, Cc and Bcc groups of the filtered recipients in that order, then the MIME lines only when a content type is set, then subject and body. |
| Format.PayloadWithoutRecipients | smtp.cc:195-205 | With no recipients and no content type, the payload is the From line, subject and body. An empty builder sends "From: \r\nSubject: \r\n\r\n\r\n.". |
| Session.AuthBlob | smtp.cc:89-90 | The credential is NUL, the user name, NUL, the password, at the positions a server splits it at. |
| Session.HandshakeFallibleCount | smtp.cc:79-94 | The handshake consumes ten outcomes: every call but Hostname can fail. |
| Session.StartTls | smtp.cc:79-94 | The handshake succeeds if and only if its ten outcomes are successes, and then its trace is the whole handshake. It is a fail-fast run of the handshake: on failure the trace ends at the fallible call whose outcome was the first rejection, and that call is returned. It never writes QUIT and never disconnects. |
| Session.StartTlsFailsAt | smtp.cc:79-94 | If outcome j is the handshake's first rejection, the trace is the handshake cut right after the call that consumed it (step j, or step j + 1 once Hostname has passed), and that call's error is returned. |
| Session.Connect | smtp.cc:96-104 | A failed TCP connect returns at once with nothing else called. Connect succeeds if and only if all eleven outcomes are successes, and then its trace is Connect plus the handshake. Disconnect is called exactly once when the TCP connect succeeded and a later step failed, and never otherwise. |
| Session.ConnectFailure | smtp.cc:99-103 | After a successful TCP connect, a failure leaves the trace as Connect, the handshake cut at the failing step, and one Disconnect. The failing step's error is returned unchanged. |
| Session.ConnectFailsAt | smtp.cc:96-104 | After a good TCP connect, if outcome j of the handshake is the first rejection, Connect's trace is Connect, the success trace cut after the call that consumed it, and one Disconnect. That call's error is returned. |
| Session.ConnectSuccessTrace | smtp.cc:79-104 | With every outcome a success, Connect makes exactly the twelve handshake calls in order. HELO names the host reported after EnableTls, and the AUTH line is the base64 credential. |
| Session.ConnectHasNoQuit | smtp.cc:96-104 | Connect never writes QUIT. |
| Session.Quit | smtp.cc:106-113 | QUIT is written. The 221 reply is read only if the write succeeded. Disconnect is then called exactly once, last, whatever happened. Quit succeeds if and only if both outcomes are successes, and a failed write is the returned error. |
| Transaction.RcptStepsIndex | smtp.cc:188-192 | Step 2i is recipient i's `RCPT TO: <address>`, and step 2i + 1 reads its 250. |
| Transaction.SendBatch | smtp.cc:184-209 | Only writes and reads are made. The trace is a prefix of MAIL FROM, the RCPT steps, DATA, the payload and their replies. It succeeds if and only if the 6 + 2n outcomes are successes, and then it ran the whole transaction. A failure returns the last call made. |
| Transaction.SendBatchFailFast | smtp.cc:184-209 | A first rejection at call k ends the transaction right after call k, with that call's error. |
| Transaction.RejectedRecipientSendsNoData | smtp.cc:188-194 | A rejected RCPT TO write or reply aborts the transaction before DATA; the payload is never written. |
| Transaction.SendBatchSuccessTrace | smtp.cc:184-209 | On success the calls are MAIL FROM with the sender's address and its 250, one RCPT TO per recipient in insertion order each followed by its 250, then DATA, 354, the payload and 250. The number of RCPT lines equals the number of recipients. |
| Transaction.RcptCountBatch | smtp.cc:188-192 | The transaction announces each recipient exactly once; no other line is a RCPT TO. |
| Transaction.SendBatchHasNoQuit | smtp.cc:184-209 | SendBatch never writes QUIT, even when the message is empty. |
| Transaction.SendBatchHasNoDisconnect | smtp.cc:184-209 | SendBatch never disconnects, so the session stays open for the next message. |
| Transaction.Finish | smtp.cc:176-181 | After the session is open, Disconnect is called exactly once, last. When the transaction fails, a bare Disconnect follows it and the transaction's error is returned unchanged. When it succeeds, QUIT follows and QUIT's status is returned. |
| Transaction.FinishQuits | smtp.cc:176-181 | QUIT is written if and only if the transaction went through. |
| Transaction.FinishStatus | smtp.cc:176-181 | The result is Ok if and only if the transaction, QUIT and its 221 all succeed (8 + 2n outcomes). |
| Transaction.Send | smtp.cc:174-182 | Disconnect is called exactly once, last, whenever the TCP connect succeeded, and not at all otherwise. A failed Connect is returned unchanged. After a good Connect, a failed transaction's error is returned unchanged after one bare Disconnect. Otherwise the trace is Connect's, the transaction's and QUIT's, and QUIT's status is returned. |
| Transaction.SendQuits | smtp.cc:174-182 | QUIT is written if and only if the session opened and the transaction went through (17 + 2n outcomes). |
| Transaction.SendStatus | smtp.cc:174-182 | Send succeeds if and only if all 19 + 2n outcomes it needs are successes. |
| Transaction.SendSuccessTrace | smtp.cc:174-182 | With every outcome a success, the trace is Connect, the handshake, the transaction, QUIT, 221 and one Disconnect. |
| Smtp.NewSmtp | smtp.h:256-259 | The facade keeps the credentials and builds its builder from the same user name and password, with an empty message. |
| Smtp.NewEmail | smtp.h:262 | NewEmail hands out an empty builder, keeps the credentials, and keeps the builder's credentials equal to the facade's. |
| Smtp.Compose | smtp.h:262 | A chain of setters after NewEmail never changes or unwires the credentials. |
| Smtp.Connect | smtp.cc:211-213 | Batch Connect is exactly the session Connect, run with the facade's credentials. It succeeds if and only if the eleven handshake outcomes are successes, and then it leaves the session open. smtp.h:264-266 promises a Disconnect after any failure. The code keeps that promise for every failure after the TCP connect: the handshake is cut at the failed call, and exactly one Disconnect comes last. A failed TCP connect returns alone with no Disconnect (smtp.cc:98). |
| Smtp.ConnectFailsAt | smtp.cc:79-104 | When the handshake's j-th outcome is rejected, batch Connect stops at the call that consumed it and disconnects once. The error it returns is that call's own, passed up by the RETURN_IF_ERROR chain. |
| Smtp.Disconnect | smtp.cc:215 | Batch Disconnect writes QUIT. It reads the 221 reply only if the write succeeded, then calls Disconnect exactly once, last. It succeeds if and only if both outcomes are successes, and otherwise it returns the failing QUIT write or 221 read. |
| Smtp.ComposeForgetsEarlierMessage | smtp.h:262 | A message composed after NewEmail depends only on the credentials and the setters called since then; nothing of an earlier message survives. |
| Smtp.SendUsesFacadeCredentials | smtp.h:256-259 | Whenever the session opens, sending a composed message first performs the facade's Connect. Its AUTH line is the base64 of NUL, the facade's user name, NUL and its password. |
| Smtp.SendTwo | smtp.h:237-252 | In the batch usage, Disconnect is called at most once in every outcome, and exactly once, last, when the batch returns Ok. The first failure's status is passed up unchanged. A failed Connect is returned as it is. A failed SendBatch, first or second, returns its own status without a Disconnect. After both transactions, Disconnect's status is returned. |
| Smtp.SendTwoSuccessTrace | smtp.h:237-252 | When every outcome succeeds, the batch is Ok. Both messages go over the one session: Connect with its handshake, the first message's transaction, the second's, then QUIT, 221 and a single Disconnect. |
| Smtp.FirstBatchFailureLeavesSessionOpen | smtp.h:237-252 | If the first message's transaction fails after a good Connect, the batch stops with an error and no Disconnect is called. |
| Smtp.SecondMessageIsFresh | smtp.h:237-252 | The second message of a batch is exactly what its own setters describe, and its transaction announces only its own recipients. |
| Scenarios.SingleEmailBuilder | smtp_test.cc:111-117 | The single-email setter chain yields three recipients with the given names, types and defaults, and the given sender, subject and body. |
| Scenarios.SingleEmailPayload | smtp_test.cc:95-100 | That message's payload is the expected From, To, Cc and Bcc lines, then subject and body. |
| Scenarios.NamedFromLine | smtp.cc:33-40 | A named sender renders as `From: from@example.com <joe smith>`, address first. |
| Scenarios.GreetingRejected | smtp_test.cc:320-337 | When the greeting read fails after a good TCP connect, Send makes Connect, Read(220) and one Disconnect, and returns the read's error. |
| Scenarios.EmptyMessageAfterNewEmail | smtp_test.cc:274-291 | After NewEmail with no setters, whatever came before, the transaction is `MAIL FROM: <>`, no RCPT TO, DATA, and the payload "From: \r\nSubject: \r\n\r\n\r\n.". |
| Scenarios.FixtureAuthLine | smtp_test.cc:71 | With the fixture's credentials the AUTH PLAIN answer is "AHVzZXJuYW1lAHBhc3N3b3Jk". |

## Left out

- SmtpAdapterImpl (smtp.cc:117-172) is not modelled: the Boost resolver, socket and TLS code. The adapter is an oracle of outcomes, and each outcome is a parameter of the operations.
- A Read is modelled as passing or failing. The three-digit code parsing (atoi of the first three bytes) and the zero-byte read belong to the adapter and are not modelled.
- Status message text is not modelled (absl status strings, the "Expected status %d" format). A status records which adapter call failed.
- WriteLine's appended CRLF is not modelled. A trace records each line without it.
- Hostname is not modelled as an independent call. The oracle reports one host name for the connection. The trace still records the Hostname call after EnableTls, and HELO uses that name.
- EnableLogging (smtp.h:274) is left out. It only toggles console output.
- The command-line program send_mail.cc is left out.
- Concurrency is not modelled: the library is single-threaded and each call blocks.
- The adapter passed by reference is not modelled as shared mutable state. Each operation hands on the oracle it leaves to the next one.
- Smtp.SendTwo: models the batch usage for exactly two messages, not an arbitrary number.

=== FILE: adapter.dfy ===
/**
 The seam between the SMTP protocol engine and the transport: the calls the engine
 makes on its adapter, a scripted oracle that answers them, and `Exec`, the
 fail-fast sequencing every engine operation is built from (each step's status is
 checked and the first failure ends the operation).
 */
module Adapter {

  /** One call on the adapter, as a recording test double sees it. A written line
      is recorded without the CRLF the real adapter appends to it. */
  datatype Call =
    | Connect
    | EnableTls
    | Read(code: int)
    | WriteLine(line: string)
    | Hostname
    | Disconnect

  /** Connect, EnableTls, Read and WriteLine report a status; Hostname and
      Disconnect return no status and so cannot fail. */
  predicate Fallible(c: Call) {
    !c.Hostname? && !c.Disconnect?
  }

  /** What an engine operation returns: success, or the adapter call whose
      failure ended the operation (its error is passed up unchanged). */
  datatype Status = Ok | Error(failed: Call)

  /** The adapter as an oracle. `outcomes[next + i]` is the answer to the i-th
      fallible call from now on; every call beyond the end of the script
      succeeds. `hostname` is what Hostname reports for the connection. */
  datatype Oracle = Oracle(outcomes: seq<bool>, next: nat, hostname: string)

  /** The i-th fallible call from now on succeeds. */
  predicate Passes(o: Oracle, i: nat) {
    o.next + i >= |o.outcomes| || o.outcomes[o.next + i]
  }

  /** The first n fallible calls from now on all succeed. */
  predicate PassesAll(o: Oracle, n: nat) {
    forall i :: 0 <= i < n ==> Passes(o, i)
  }

  /** The oracle after n fallible calls have been answered. */
  function Advance(o: Oracle, n: nat): Oracle
  {
    o.(next := o.next + n)
  }

  /** Answers after an advance are the later answers of the original oracle. */
  lemma AdvancePasses(o: Oracle, n: nat, m: nat)
    ensures PassesAll(Advance(o, n), m) && PassesAll(o, n) <==> PassesAll(o, n + m)

  {
    if PassesAll(o, n + m) {
      forall i | 0 <= i < m ensures Passes(Advance(o, n), i) {
        assert Passes(o, n + i);
      }
    }
    if PassesAll(Advance(o, n), m) && PassesAll(o, n) {
      forall i | 0 <= i < n + m ensures Passes(o, i) {
        if i >= n {
          assert Passes(Advance(o, n), i - n);
        }
      }
    }
  }

  /** A finished engine operation: the calls made, the status returned, and the
      oracle left for whatever runs next on the same adapter. */
  datatype Run = Run(trace: seq<Call>, status: Status, after: Oracle)

  function Last<T>(s: seq<T>): T
    requires |s| > 0
  {
    s[|s| - 1]
  }

  /** Number of fallible calls in a trace: the outcomes it consumes. */
  function FallibleCount(calls: seq<Call>): (n: nat)
    ensures n <= |calls|
  {
    if |calls| == 0 then 0
    else (if Fallible(calls[0]) then 1 else 0) + FallibleCount(calls[1..])
  }

  /** Number of occurrences of one call in a trace. */
  function Count(calls: seq<Call>, c: Call): (n: nat)
    ensures n <= |calls|
    ensures n == 0 <==> c !in calls
  {
    if |calls| == 0 then 0
    else (if calls[0] == c then 1 else 0) + Count(calls[1..], c)
  }

  lemma {:induction false} CountAppend(a: seq<Call>, b: seq<Call>, c: Call)
    ensures Count(a + b, c) == Count(a, c) + Count(b, c)
  {
    if |a| == 0 {
      assert a + b == b;
    } else {
      assert (a + b)[1..] == a[1..] + b;
      CountAppend(a[1..], b, c);
    }
  }

  lemma {:induction false} FallibleCountAppend(a: seq<Call>, b: seq<Call>)
    ensures FallibleCount(a + b) == FallibleCount(a) + FallibleCount(b)
  {
    if |a| == 0 {
      assert a + b == b;
    } else {
      assert (a + b)[1..] == a[1..] + b;
      FallibleCountAppend(a[1..], b);
    }
  }

  /** A prefix of a trace consumes no more outcomes than the whole trace. */
  lemma {:induction false} FallibleCountPrefix(a: seq<Call>, b: seq<Call>)
    requires a <= b
    ensures FallibleCount(a) <= FallibleCount(b)
  {
    if |a| > 0 {
      assert a[1..] <= b[1..];
      FallibleCountPrefix(a[1..], b[1..]);
    }
  }

  /** The fail-fast contract of a run of `steps` against oracle `o`: the trace
      is a prefix of the steps, consumed exactly the outcomes of its fallible
      calls, and either ran every step with every outcome a success, or ended
      with a fallible call that was rejected after all earlier ones succeeded,
      and returned that call as the error. */
  ghost predicate FailFast(o: Oracle, steps: seq<Call>, r: Run) {
    && r.trace <= steps
    && r.after == Advance(o, FallibleCount(r.trace))
    && (r.status.Ok? ==> r.trace == steps && PassesAll(o, FallibleCount(steps)))
    && (r.status.Error? ==>
          && |r.trace| > 0
          && r.status.failed == Last(r.trace)
          && Fallible(Last(r.trace))
          && FallibleCount(r.trace) > 0
          && !Passes(o, FallibleCount(r.trace) - 1)
          && PassesAll(o, FallibleCount(r.trace) - 1))
  }

  /** One successful (or status-less) first step followed by a fail-fast run
      of the rest is a fail-fast run of the whole. */
  lemma FailFastCons(o: Oracle, first: Call, steps: seq<Call>, rest: Run)
    requires Fallible(first) ==> Passes(o, 0)
    requires FailFast(Advance(o, if Fallible(first) then 1 else 0), steps, rest)
    ensures FailFast(o, [first] + steps, Run([first] + rest.trace, rest.status, rest.after))
  {
    var used := if Fallible(first) then 1 else 0;
    ConsCounts(first, steps, rest.trace);
    if rest.status.Ok? {
      AdvancePasses(o, used, FallibleCount(steps));
    } else {
      ConsRejected(o, first, rest.trace);
    }
  }

  /** Putting one call in front of a trace and of the steps it is a prefix of. */
  lemma ConsCounts(first: Call, steps: seq<Call>, t: seq<Call>)
    requires t <= steps
    ensures [first] + t <= [first] + steps
    ensures FallibleCount([first] + t) == (if Fallible(first) then 1 else 0) + FallibleCount(t)
    ensures FallibleCount([first] + steps) == (if Fallible(first) then 1 else 0) + FallibleCount(steps)
    ensures |t| > 0 ==> Last([first] + t) == Last(t)
  {
    assert ([first] + t)[1..] == t;
    assert ([first] + steps)[1..] == steps;
  }

  /** The first rejection seen after a passed (or status-less) first call is
      the first rejection of the whole. */
  lemma ConsRejected(o: Oracle, first: Call, t: seq<Call>)
    requires Fallible(first) ==> Passes(o, 0)
    requires FallibleCount(t) > 0
    requires var a := Advance(o, if Fallible(first) then 1 else 0);
             !Passes(a, FallibleCount(t) - 1) && PassesAll(a, FallibleCount(t) - 1)
    ensures var n := (if Fallible(first) then 1 else 0) + FallibleCount(t);
            !Passes(o, n - 1) && PassesAll(o, n - 1)
  {
    var used := if Fallible(first) then 1 else 0;
    var m := FallibleCount(t) - 1;
    AdvancePasses(o, used, m);
    assert Passes(o, used + m) == Passes(Advance(o, used), m);
  }

  /** Runs `steps` in order, checking each status and stopping at the first
      failing call: the shape of a chain of RETURN_IF_ERROR statements. */
  function Exec(o: Oracle, steps: seq<Call>): (r: Run)
    ensures FailFast(o, steps, r)
    decreases |steps|
  {
    if |steps| == 0 then
      Run([], Ok, o)
    else if Fallible(steps[0]) && !Passes(o, 0) then
      Run([steps[0]], Error(steps[0]), Advance(o, 1))
    else
      var used := if Fallible(steps[0]) then 1 else 0;
      var rest := Exec(Advance(o, used), steps[1..]);
      assert [steps[0]] + steps[1..] == steps;
      FailFastCons(o, steps[0], steps[1..], rest);
      Run([steps[0]] + rest.trace, rest.status, rest.after)
  }

  /** When every outcome the steps need is a success, they all run and the
      result is Ok. */
  lemma ExecAllPass(o: Oracle, steps: seq<Call>)
    ensures Exec(o, steps).status.Ok? <==> PassesAll(o, FallibleCount(steps))
  {
    FallibleCountPrefix(Exec(o, steps).trace, steps);
  }

  /** The first rejected outcome decides where Exec stops: the trace ends with
      the j-th fallible step and nothing after it runs. */
  lemma ExecStopsAtFirstRejection(o: Oracle, steps: seq<Call>, j: nat)
    requires j < FallibleCount(steps)
    requires PassesAll(o, j) && !Passes(o, j)
    ensures Exec(o, steps).status.Error?
    ensures FallibleCount(Exec(o, steps).trace) == j + 1
  {
  }

  /** When every step is fallible, outcome i answers step i. */
  predicate AllFallible(steps: seq<Call>) {
    forall i :: 0 <= i < |steps| ==> Fallible(steps[i])
  }

  lemma {:induction false} AllFallibleCount(steps: seq<Call>)
    requires AllFallible(steps)
    ensures FallibleCount(steps) == |steps|
  {
    if |steps| > 0 {
      AllFallibleCount(steps[1..]);
    }
  }

  /** For a script of fallible steps, a rejection of outcome j cuts the trace
      right after step j. */
  lemma ExecCutsAt(o: Oracle, steps: seq<Call>, j: nat)
    requires AllFallible(steps)
    requires j < |steps|
    requires PassesAll(o, j) && !Passes(o, j)
    ensures Exec(o, steps).trace == steps[..j + 1]
    ensures Exec(o, steps).status == Error(steps[j])
  {
    var r := Exec(o, steps);
    AllFallibleCount(steps);
    ExecAllPassFailFast(o, steps, r, j);
    FailFastConsumed(o, steps, r, j);
    assert AllFallible(r.trace) by {
      forall i | 0 <= i < |r.trace| ensures Fallible(r.trace[i]) {
        assert r.trace[i] == steps[i];
      }
    }
    AllFallibleCount(r.trace);
    assert r.trace == steps[..j + 1];
  }

  /** Steps that are all fallible except one silent step at index h: a prefix
      of length n consumes n outcomes up to h, and one fewer past it. */
  lemma {:induction false} PrefixCountAroundSilent(steps: seq<Call>, h: nat, n: nat)
    requires h < |steps| && !Fallible(steps[h])
    requires forall i :: 0 <= i < |steps| && i != h ==> Fallible(steps[i])
    requires n <= |steps|
    ensures FallibleCount(steps[..n]) == (if n <= h then n else n - 1)
  {
    if n <= h {
      AllFallibleCount(steps[..n]);
    } else {
      assert steps[..n] == steps[..h] + [steps[h]] + steps[h + 1..n];
      AllFallibleCount(steps[..h]);
      AllFallibleCount(steps[h + 1..n]);
      FallibleCountAppend(steps[..h], [steps[h]]);
      FallibleCountAppend(steps[..h] + [steps[h]], steps[h + 1..n]);
    }
  }

  /** A failed fail-fast run whose first rejected outcome is j has consumed
      exactly j + 1 outcomes. */
  lemma FailFastConsumed(o: Oracle, steps: seq<Call>, r: Run, j: nat)
    requires FailFast(o, steps, r) && r.status.Error?
    requires PassesAll(o, j) && !Passes(o, j)
    ensures FallibleCount(r.trace) == j + 1
  {
    assert j < FallibleCount(r.trace) - 1 ==> Passes(o, j);
  }

  /** For steps with one silent step at index h, a first rejection of outcome
      j cuts the run right after the call that consumed it: step j before h,
      step j + 1 after it. That call's error is returned. */
  lemma FailFastCutsAroundSilent(o: Oracle, steps: seq<Call>, r: Run, h: nat, j: nat)
    requires h < |steps| && !Fallible(steps[h])
    requires forall i :: 0 <= i < |steps| && i != h ==> Fallible(steps[i])
    requires FailFast(o, steps, r)
    requires j + 1 < |steps| && PassesAll(o, j) && !Passes(o, j)
    ensures var k := if j < h then j else j + 1;
            r.trace == steps[..k + 1] && r.status == Error(steps[k])
  {
    PrefixCountAroundSilent(steps, h, |steps|);
    assert steps[..|steps|] == steps;
    ExecAllPassFailFast(o, steps, r, j);
    FailFastConsumed(o, steps, r, j);
    var n := |r.trace|;
    assert r.trace == steps[..n];
    PrefixCountAroundSilent(steps, h, n);
    assert n - 1 != h by {
      assert Fallible(r.trace[n - 1]);
    }
  }

  /** A fail-fast run against a rejected outcome that its steps need fails. */
  lemma ExecAllPassFailFast(o: Oracle, steps: seq<Call>, r: Run, j: nat)
    requires FailFast(o, steps, r)
    requires j < FallibleCount(steps) && !Passes(o, j)
    ensures r.status.Error?
  {
  }
}

=== FILE: base64.dfy ===
/**
 Base64 encoding of the PLAIN credential blob (RFC 4648, section 4).

 The encoder is built the way the C++ one is: a stream of alphabet characters,
 one per 6 bits of input with the last group zero-filled and no padding (what
 Boost's `base64_from_binary<transform_width<..., 6, 8>>` yields), followed by
 the visible loop that appends '=' until the input size reaches a multiple of
 three. Its partners are the quantum-by-quantum definition of the RFC, which it
 is proved equal to, and a decoder it is proved to round-trip with.
 */
module Base64 {

  /** A C++ std::string holds octets; a character below 256 stands for one. */
  type Octet = c: char | c as int < 256 witness '\0'

  /** The alphabet of table 1 of RFC 4648: value 0..63 to character. */
  function Alphabet(v: int): (c: char)
    requires 0 <= v < 64
    ensures IsAlphabetChar(c)
  {
    if v < 26 then ('A' as int + v) as char
    else if v < 52 then ('a' as int + (v - 26)) as char
    else if v < 62 then ('0' as int + (v - 52)) as char
    else if v == 62 then '+'
    else '/'
  }

  predicate IsAlphabetChar(c: char) {
    || 'A' <= c <= 'Z'
    || 'a' <= c <= 'z'
    || '0' <= c <= '9'
    || c == '+'
    || c == '/'
  }

  /** The value a character of the alphabet stands for; 0 for any other. */
  function ValueOf(c: char): (v: int)
    ensures 0 <= v < 64
    ensures IsAlphabetChar(c) ==> Alphabet(v) == c
  {
    if 'A' <= c <= 'Z' then c as int - 'A' as int
    else if 'a' <= c <= 'z' then c as int - 'a' as int + 26
    else if '0' <= c <= '9' then c as int - '0' as int + 52
    else if c == '+' then 62
    else if c == '/' then 63
    else 0
  }

  /** ValueOf inverts Alphabet, so the 64 characters are distinct. */
  lemma ValueOfAlphabet(v: int)
    requires 0 <= v < 64
    ensures ValueOf(Alphabet(v)) == v
  {
  }

  /** The 6-bit groups of one, two or three octets, the last group zero-filled. */
  function Group1(b0: Octet): string {
    var x := b0 as int;
    [Alphabet(x / 4), Alphabet((x % 4) * 16)]
  }

  function Group2(b0: Octet, b1: Octet): string {
    var x, y := b0 as int, b1 as int;
    [Alphabet(x / 4), Alphabet((x % 4) * 16 + y / 16), Alphabet((y % 16) * 4)]
  }

  function Group3(b0: Octet, b1: Octet, b2: Octet): string {
    var x, y, z := b0 as int, b1 as int, b2 as int;
    [Alphabet(x / 4), Alphabet((x % 4) * 16 + y / 16), Alphabet((y % 16) * 4 + z / 64), Alphabet(z % 64)]
  }

  predicate AllAlphabet(s: string) {
    forall i :: 0 <= i < |s| ==> IsAlphabetChar(s[i])
  }

  /** Number of '=' the padding adds for an input of n octets. */
  function PadCount(n: nat): nat {
    (3 - n % 3) % 3
  }

  /** The unpadded character stream: ceil(8n/6) alphabet characters. */
  function Digits(data: seq<Octet>): (r: string)
    ensures |r| == 4 * ((|data| + 2) / 3) - PadCount(|data|)
    ensures AllAlphabet(r)
    decreases |data|
  {
    if |data| == 0 then ""
    else if |data| == 1 then Group1(data[0])
    else if |data| == 2 then Group2(data[0], data[1])
    else
      var g, rest := Group3(data[0], data[1], data[2]), Digits(data[3..]);
      assert AllAlphabet(g);
      AllAlphabetAppend(g, rest);
      QuantumStep(|data|);
      g + rest
  }

  lemma AllAlphabetAppend(a: string, b: string)
    requires AllAlphabet(a) && AllAlphabet(b)
    ensures AllAlphabet(a + b)
  {
  }

  /** One more full quantum leaves the padding as it was. */
  lemma PadCountStep(n: nat, m: nat)
    requires m + 3 == n
    ensures PadCount(n) == PadCount(m)
  {
  }

  /** One more full quantum adds four characters and leaves the padding as it was. */
  lemma QuantumStep(n: nat)
    requires n >= 3
    ensures 4 * ((n + 2) / 3) - PadCount(n) == 4 + (4 * ((n - 1) / 3) - PadCount(n - 3))
  {
  }

  /** The padding loop: appends '=' and bumps `size` until size is a multiple
      of three. */
  function PadToQuantum(result: string, size: nat): (r: string)
    ensures |r| == |result| + PadCount(size)
    ensures r[..|result|] == result
    ensures forall i :: |result| <= i < |r| ==> r[i] == '='
    decreases PadCount(size)
  {
    if size % 3 == 0 then result
    else PadToQuantum(result + "=", size + 1)
  }

  /** Base64Encode: the character stream followed by the padding loop. The
      output has 4 * ceil(n/3) characters, ends with exactly PadCount(n) '=',
      and every other character is in the alphabet. */
  function Encode(data: seq<Octet>): (r: string)
    ensures |r| == 4 * ((|data| + 2) / 3)
    ensures AllAlphabet(r[..|r| - PadCount(|data|)])
    ensures forall i :: |r| - PadCount(|data|) <= i < |r| ==> r[i] == '='
  {
    PadToQuantum(Digits(data), |data|)
  }

  /** Reference: the encoding as section 4 of RFC 4648 states it, one 24-bit
      quantum at a time, with the final one-octet quantum written as two
      characters and "==" and the final two-octet quantum as three and "=". */
  function Rfc4648(data: seq<Octet>): string
    decreases |data|
  {
    if |data| == 0 then ""
    else if |data| == 1 then Group1(data[0]) + "=="
    else if |data| == 2 then Group2(data[0], data[1]) + "="
    else Group3(data[0], data[1], data[2]) + Rfc4648(data[3..])
  }

  /** PadToQuantum appends exactly PadCount(size) '=' characters. */
  lemma PadToQuantumIsAppend(result: string, size: nat)
    ensures PadToQuantum(result, size) == result + seq(PadCount(size), _ => '=')
  {
    var r := PadToQuantum(result, size);
    var pad := seq(PadCount(size), _ => '=');
    assert |r| == |result + pad|;
    forall i | 0 <= i < |r| ensures r[i] == (result + pad)[i] {
      if i < |result| {
        assert r[..|result|][i] == r[i];
      }
    }
  }

  /** The C++ encoder (stream, then padding loop) is the RFC 4648 encoding. */
  lemma {:induction false} EncodeIsRfc4648(data: seq<Octet>)
    ensures Encode(data) == Rfc4648(data)
    decreases |data|
  {
    var n := |data|;
    if n == 1 {
      PadToQuantumIsAppend(Digits(data), n);
      assert seq(PadCount(n), _ => '=') == "==";
    } else if n == 2 {
      PadToQuantumIsAppend(Digits(data), n);
      assert seq(PadCount(n), _ => '=') == "=";
    } else if n >= 3 {
      var b0, b1, b2, rest := data[0], data[1], data[2], data[3..];
      var g := Group3(b0, b1, b2);
      var pad := seq(PadCount(n), _ => '=');
      assert Digits(data) == g + Digits(rest);
      assert Rfc4648(data) == g + Rfc4648(rest);
      PadCountStep(n, |rest|);
      PadToQuantumIsAppend(Digits(data), n);
      PadToQuantumIsAppend(Digits(rest), |rest|);
      EncodeIsRfc4648(rest);
      assert Encode(rest) == Digits(rest) + pad;
      assert (g + Digits(rest)) + pad == g + (Digits(rest) + pad);
    }
  }

  /** Decodes quanta of four characters; a quantum with '=' in its third or
      fourth place is a final one of one or two octets. */
  function Decode(s: string): seq<Octet>
    decreases |s|
  {
    if |s| < 4 then []
    else
      var v0, v1, v2, v3 := ValueOf(s[0]), ValueOf(s[1]), ValueOf(s[2]), ValueOf(s[3]);
      var b0 := (v0 * 4 + v1 / 16) as char;
      var b1 := ((v1 % 16) * 16 + v2 / 4) as char;
      var b2 := ((v2 % 4) * 64 + v3) as char;
      if s[2] == '=' then [b0]
      else if s[3] == '=' then [b0, b1]
      else [b0, b1, b2] + Decode(s[4..])
  }

  lemma OctetSplit(x: int)
    requires 0 <= x < 256
    ensures (x / 4) * 4 + ((x % 4) * 16) / 16 == x
    ensures forall y :: 0 <= y < 256 ==> ((x % 4) * 16 + y / 16) / 16 == x % 4 && ((x % 4) * 16 + y / 16) % 16 == y / 16
  {
  }

  lemma Group1Decodes(b0: Octet)
    ensures Decode(Group1(b0) + "==") == [b0]
  {
    var x := b0 as int;
    ValueOfAlphabet(x / 4);
    ValueOfAlphabet((x % 4) * 16);
    OctetSplit(x);
  }

  lemma Group2Decodes(b0: Octet, b1: Octet)
    ensures Decode(Group2(b0, b1) + "=") == [b0, b1]
  {
    var x, y := b0 as int, b1 as int;
    ValueOfAlphabet(x / 4);
    ValueOfAlphabet((x % 4) * 16 + y / 16);
    ValueOfAlphabet((y % 16) * 4);
    OctetSplit(x);
    assert ((y % 16) * 4) / 4 == y % 16;
  }

  lemma Group3Decodes(b0: Octet, b1: Octet, b2: Octet, rest: string)
    ensures Decode(Group3(b0, b1, b2) + rest) == [b0, b1, b2] + Decode(rest)
  {
    var x, y, z := b0 as int, b1 as int, b2 as int;
    var s := Group3(b0, b1, b2) + rest;
    ValueOfAlphabet(x / 4);
    ValueOfAlphabet((x % 4) * 16 + y / 16);
    ValueOfAlphabet((y % 16) * 4 + z / 64);
    ValueOfAlphabet(z % 64);
    OctetSplit(x);
    assert ((y % 16) * 4 + z / 64) / 4 == y % 16 && ((y % 16) * 4 + z / 64) % 4 == z / 64;
    assert s[4..] == rest;
  }

  /** Decoding an encoding gives back the octets. */
  lemma {:induction false} DecodeRfc4648(data: seq<Octet>)
    ensures Decode(Rfc4648(data)) == data
    decreases |data|
  {
    if |data| == 1 {
      assert Decode(Rfc4648(data)) == data by {
        assert Rfc4648(data) == Group1(data[0]) + "==";
        Group1Decodes(data[0]);
        assert data == [data[0]];
      }
    } else if |data| == 2 {
      assert Decode(Rfc4648(data)) == data by {
        assert Rfc4648(data) == Group2(data[0], data[1]) + "=";
        Group2Decodes(data[0], data[1]);
        assert data == [data[0], data[1]];
      }
    } else if |data| >= 3 {
      var b0, b1, b2, rest := data[0], data[1], data[2], data[3..];
      assert data == [b0, b1, b2] + rest;
      DecodeRfc4648(rest);
      assert Rfc4648(data) == Group3(b0, b1, b2) + Rfc4648(rest);
      Group3Decodes(b0, b1, b2, Rfc4648(rest));
    }
  }

  /** The round trip: Encode loses nothing. */
  lemma DecodeEncode(data: seq<Octet>)
    ensures Decode(Encode(data)) == data
  {
    EncodeIsRfc4648(data);
    DecodeRfc4648(data);
  }

  /** Distinct octet strings have distinct encodings. */
  lemma EncodeInjective(a: seq<Octet>, b: seq<Octet>)
    ensures Encode(a) == Encode(b) <==> a == b
  {
    if Encode(a) == Encode(b) {
      DecodeEncode(a);
      DecodeEncode(b);
    }
  }

  /** The first character encodes the top six bits of the first octet. */
  lemma EncodeFirst(data: seq<Octet>)
    requires |data| > 0
    ensures Encode(data)[0] == Alphabet(data[0] as int / 4)
  {
    var d := Digits(data);
    assert d[0] == Alphabet(data[0] as int / 4);
    assert Encode(data)[..|d|] == d;
  }

  /** The six quanta of the credential below. */
  lemma CredentialExampleQuanta()
    ensures Group3('\0', 'u', 's') == "AHVz"
    ensures Group3('e', 'r', 'n') == "ZXJu"
    ensures Group3('a', 'm', 'e') == "YW1l"
    ensures Group3('\0', 'p', 'a') == "AHBh"
    ensures Group3('s', 's', 'w') == "c3N3"
    ensures Group3('o', 'r', 'd') == "b3Jk"
  {
  }

  /** The six quanta joined; kept apart from EncodeCredentialExample, where
      the literal costs the solver far more next to the encoder's definitions. */
  lemma CredentialExampleJoin()
    ensures "AHVz" + ("ZXJu" + ("YW1l" + ("AHBh" + ("c3N3" + "b3Jk")))) == "AHVzZXJuYW1lAHBhc3N3b3Jk"
  {
  }

  /** An input of whole quanta is encoded one quantum after another. */
  lemma {:induction false} DigitsOfQuanta(data: seq<Octet>, k: nat)
    requires |data| == 3 * k
    ensures Digits(data) == Rfc4648(data)
    ensures Encode(data) == Digits(data)
    decreases k
  {
    if k > 0 {
      DigitsOfQuanta(data[3..], k - 1);
      var g := Group3(data[0], data[1], data[2]);
      assert Digits(data) == g + Digits(data[3..]);
      assert Rfc4648(data) == g + Rfc4648(data[3..]);
    }
    PadCountWhole(|data|, k);
  }

  lemma PadCountWhole(n: nat, k: nat)
    requires n == 3 * k
    ensures PadCount(n) == 0
  {
  }

  /** An input of six whole quanta, quantum by quantum. */
  lemma {:induction false} Rfc4648SixQuanta(d: seq<Octet>)
    requires |d| == 18
    ensures var g0: string, g1: string, g2: string := Group3(d[0], d[1], d[2]), Group3(d[3], d[4], d[5]), Group3(d[6], d[7], d[8]);
            var g3: string, g4: string, g5: string := Group3(d[9], d[10], d[11]), Group3(d[12], d[13], d[14]), Group3(d[15], d[16], d[17]);
            Rfc4648(d) == g0 + (g1 + (g2 + (g3 + (g4 + g5))))
  {
    var d1 := d[3..];
    var d2 := d1[3..];
    var d3 := d2[3..];
    var d4 := d3[3..];
    var d5 := d4[3..];
    assert Rfc4648(d5) == Group3(d[15], d[16], d[17]) by {
      assert d5[3..] == [];
    }
    assert Rfc4648(d4) == Group3(d[12], d[13], d[14]) + Rfc4648(d5);
    assert Rfc4648(d3) == Group3(d[9], d[10], d[11]) + Rfc4648(d4);
    assert Rfc4648(d2) == Group3(d[6], d[7], d[8]) + Rfc4648(d3);
    assert Rfc4648(d1) == Group3(d[3], d[4], d[5]) + Rfc4648(d2);
  }

  /** The RFC 4616 credential of user "username" with password "password". */
  lemma EncodeCredentialExample()
    ensures Encode("\0username\0password") == "AHVzZXJuYW1lAHBhc3N3b3Jk"
  {
    var data: seq<Octet> := "\0username\0password";
    DigitsOfQuanta(data, 6);
    Rfc4648SixQuanta(data);
    CredentialExampleQuanta();
    CredentialExampleJoin();
  }
}

=== FILE: message.dfy ===
/**
 The message builder: recipients, sender and the fields of one email, the
 fluent setters that fill them in, and Reset, which empties the message but
 keeps the credentials. Every operation is a pure function from builder to
 builder; none of them touches the adapter.
 */
module Message {
  import opened Base64

  /** How a recipient is addressed; the C++ enum values are 0, 1 and 2. */
  datatype RecipientType = Primary | CarbonCopy | Blind

  /** The integer value of the C++ enum constant. */
  function Ordinal(t: RecipientType): (v: int)
    ensures 0 <= v < 3
  {
    match t
    case Primary => 0
    case CarbonCopy => 1
    case Blind => 2
  }

  /** Distinct recipient types have distinct enum values, so comparing the
      integers (as the header writer does) is comparing the types. */
  lemma OrdinalInjective(a: RecipientType, b: RecipientType)
    ensures Ordinal(a) == Ordinal(b) <==> a == b
  {
  }

  datatype Recipient = Recipient(address: string, name: string, kind: RecipientType)

  datatype Sender = Sender(address: string, name: string)

  /** A default-constructed Recipient: empty strings, type Primary. */
  function DefaultRecipient(): (r: Recipient)
    ensures r.kind == Primary && Ordinal(r.kind) == 0
    ensures r.address == "" && r.name == ""
  {
    Recipient("", "", Primary)
  }

  /** The builder's state: one message plus the credentials it sends with. */
  datatype Builder = Builder(
    recipients: seq<Recipient>,
    sender: Sender,
    subject: string,
    body: string,
    contentType: string,
    username: seq<Octet>,
    password: seq<Octet>)

  /** The message fields are all empty (the credentials are not looked at). */
  predicate IsEmptyMessage(b: Builder) {
    && b.recipients == []
    && b.sender == Sender("", "")
    && b.subject == ""
    && b.body == ""
    && b.contentType == ""
  }

  /** A builder as its constructor leaves it: the credentials and nothing else. */
  function NewBuilder(username: seq<Octet>, password: seq<Octet>): (b: Builder)
    ensures IsEmptyMessage(b)
    ensures b.username == username && b.password == password
  {
    Builder([], Sender("", ""), "", "", "", username, password)
  }

  /** Everything but the subject is left as it was. */
  function SetSubject(b: Builder, subject: string): (r: Builder)
    ensures r.subject == subject
    ensures r.(subject := b.subject) == b
  {
    b.(subject := subject)
  }

  function SetBody(b: Builder, body: string): (r: Builder)
    ensures r.body == body
    ensures r.(body := b.body) == b
  {
    b.(body := body)
  }

  /** Overwrites both the sender's address and name; the name defaults to "". */
  function SetSender(b: Builder, address: string, name: string := ""): (r: Builder)
    ensures r.sender.address == address && r.sender.name == name
    ensures r.(sender := b.sender) == b
  {
    b.(sender := Sender(address, name))
  }

  function SetContentType(b: Builder, contentType: string): (r: Builder)
    ensures r.contentType == contentType
    ensures r.(contentType := b.contentType) == b
  {
    b.(contentType := contentType)
  }

  /** Appends one recipient at the end, built from a default-constructed one;
      the name defaults to "" and the type to Primary. */
  function AddRecipient(b: Builder, address: string, name: string := "", kind: RecipientType := Primary): (r: Builder)
    ensures |r.recipients| == |b.recipients| + 1
    ensures r.recipients[..|b.recipients|] == b.recipients
    ensures r.recipients[|b.recipients|] == Recipient(address, name, kind)
    ensures r.(recipients := b.recipients) == b
  {
    var added := DefaultRecipient().(address := address, name := name, kind := kind);
    b.(recipients := b.recipients + [added])
  }

  /** Empties every message field and keeps the credentials. */
  function Reset(b: Builder): (r: Builder)
    ensures IsEmptyMessage(r)
    ensures r.username == b.username && r.password == b.password
  {
    b.(subject := "", body := "", sender := Sender("", ""), contentType := "", recipients := [])
  }

  /** A reset builder is the builder the constructor makes from the same
      credentials: nothing of an earlier message survives NewEmail. */
  lemma ResetIsFresh(b: Builder)
    ensures Reset(b) == NewBuilder(b.username, b.password)
    ensures Reset(Reset(b)) == Reset(b)
  {
  }

  /** One call of a fluent chain such as
      `NewEmail().SetSender(..).AddRecipient(..).SetSubject(..)`. */
  datatype Edit =
    | SubjectEdit(subject: string)
    | BodyEdit(body: string)
    | SenderEdit(address: string, name: string := "")
    | ContentTypeEdit(contentType: string)
    | RecipientEdit(address: string, name: string := "", kind: RecipientType := Primary)

  function ApplyEdit(b: Builder, e: Edit): Builder {
    match e
    case SubjectEdit(s) => SetSubject(b, s)
    case BodyEdit(s) => SetBody(b, s)
    case SenderEdit(a, n) => SetSender(b, a, n)
    case ContentTypeEdit(c) => SetContentType(b, c)
    case RecipientEdit(a, n, k) => AddRecipient(b, a, n, k)
  }

  /** Applies a chain of setter calls in order. */
  function Apply(b: Builder, edits: seq<Edit>): (r: Builder)
    ensures r.username == b.username && r.password == b.password
    ensures |r.recipients| == |b.recipients| + CountRecipientEdits(edits)
    ensures r.recipients[..|b.recipients|] == b.recipients
    decreases |edits|
  {
    if |edits| == 0 then b
    else Apply(ApplyEdit(b, edits[0]), edits[1..])
  }

  function CountRecipientEdits(edits: seq<Edit>): nat {
    if |edits| == 0 then 0
    else (if edits[0].RecipientEdit? then 1 else 0) + CountRecipientEdits(edits[1..])
  }

  /** Whatever chain of setters came before, Reset leaves the same builder. */
  lemma ResetForgetsEdits(b: Builder, edits: seq<Edit>)
    ensures Reset(Apply(b, edits)) == Reset(b)
  {
  }
}

=== FILE: payload.dfy ===
/**
 The DATA payload of one message: the From line, one header group per
 recipient type, the optional MIME lines, the Subject line, the body and the
 end-of-data marker. Kept as the C++ writes them: the From line renders as
 `address <name>` (the other way round from recipients), every recipient entry
 is followed by CRLF and the next one by ", " (so a group spans several
 lines), Blind recipients get a Bcc header inside the payload, and the body is
 not dot-stuffed.
 */
module Format {
  import opened Message
  import opened Seqs

  /** `s` ends with `t`. */
  predicate EndsWith(s: string, t: string) {
    |t| <= |s| && s[|s| - |t|..] == t
  }

  lemma EndsWithAppend(a: string, b: string, t: string)
    requires EndsWith(b, t)
    ensures EndsWith(a + b, t)
  {
    assert (a + b)[|a|..] == b;
    assert (a + b)[|a + b| - |t|..] == b[|b| - |t|..];
  }

  /** One recipient inside a header group: `name <address>`, or the bare
      address when the name is empty. */
  function Entry(r: Recipient): string {
    if |r.name| > 0 then r.name + " <" + r.address + ">" else r.address
  }

  /** The single-entry header line used for From: `field: address`, then
      ` <name>` only when the name is not empty, then CRLF. */
  function WriteRecipient(field: string, address: string, name: string): (r: string)
    ensures field + ": " + address <= r
    ensures |name| == 0 <==> r == field + ": " + address + "\r\n"
    ensures |name| > 0 ==> r == field + ": " + address + " <" + name + ">" + "\r\n"
  {
    var line := field + ": " + address;
    var rest := (if |name| > 0 then " <" + name + ">" else "") + "\r\n";
    assert |name| > 0 ==> rest[0] == ' ';
    PrefixOfAppend(line, line, rest);
    assert line + rest == line + (if |name| > 0 then " <" + name + ">" else "") + "\r\n";
    line + rest
  }

  /** The loop over all recipients, skipping those of another type; `started`
      says whether `field: ` has been written yet. */
  function WriteRecipientsFrom(rs: seq<Recipient>, field: string, kind: RecipientType, started: bool): string
    decreases |rs|
  {
    if |rs| == 0 then ""
    else if rs[0].kind != kind then WriteRecipientsFrom(rs[1..], field, kind, started)
    else
      (if started then ", " else field + ": ") + Entry(rs[0]) + "\r\n"
      + WriteRecipientsFrom(rs[1..], field, kind, true)
  }

  /** The header group for one recipient type. Empty exactly when no
      recipient has that type; otherwise it opens with `field: ` and every
      entry is closed by CRLF. */
  function WriteRecipients(rs: seq<Recipient>, field: string, kind: RecipientType): string {
    WriteRecipientsFrom(rs, field, kind, false)
  }

  /** The header group is empty exactly when no recipient has the type;
      otherwise it opens with `field: ` once and ends with CRLF. */
  lemma WriteRecipientsShape(rs: seq<Recipient>, field: string, kind: RecipientType)
    ensures var g := WriteRecipients(rs, field, kind);
            && (g == "" <==> forall i :: 0 <= i < |rs| ==> rs[i].kind != kind)
            && (g != "" ==> field + ": " <= g && EndsWith(g, "\r\n"))
  {
    WriteRecipientsIsGroup(rs, field, kind);
    GroupShape(field, Select(rs, kind));
    SelectEmpty(rs, kind);
  }

  lemma {:induction false} SelectEmpty(rs: seq<Recipient>, kind: RecipientType)
    ensures Select(rs, kind) == [] <==> forall i :: 0 <= i < |rs| ==> rs[i].kind != kind
    decreases |rs|
  {
    if |rs| > 0 {
      SelectEmpty(rs[1..], kind);
      assert forall i :: 1 <= i < |rs| ==> rs[i] == rs[1..][i - 1];
    }
  }

  // Reference view: filter first, then render the group.

  /** The recipients of one type, in insertion order. */
  function Select(rs: seq<Recipient>, kind: RecipientType): (ms: seq<Recipient>)
    ensures |ms| <= |rs|
    decreases |rs|
  {
    if |rs| == 0 then []
    else (if rs[0].kind == kind then [rs[0]] else []) + Select(rs[1..], kind)
  }

  /** Entries after the first: each preceded by ", " and followed by CRLF. */
  function Continued(ms: seq<Recipient>): string
    decreases |ms|
  {
    if |ms| == 0 then "" else ", " + Entry(ms[0]) + "\r\n" + Continued(ms[1..])
  }

  /** A whole group: nothing for no entries, else `field: `, the first entry,
      CRLF, and the rest. */
  function Group(field: string, ms: seq<Recipient>): string {
    if |ms| == 0 then "" else field + ": " + Entry(ms[0]) + "\r\n" + Continued(ms[1..])
  }

  lemma {:induction false} WriteRecipientsFromIsGroup(rs: seq<Recipient>, field: string, kind: RecipientType)
    ensures WriteRecipientsFrom(rs, field, kind, true) == Continued(Select(rs, kind))
    ensures WriteRecipientsFrom(rs, field, kind, false) == Group(field, Select(rs, kind))
    decreases |rs|
  {
    if |rs| > 0 {
      WriteRecipientsFromIsGroup(rs[1..], field, kind);
      if rs[0].kind == kind {
        var ms := Select(rs, kind);
        assert ms == [rs[0]] + Select(rs[1..], kind);
        assert ms[1..] == Select(rs[1..], kind);
      } else {
        assert Select(rs, kind) == Select(rs[1..], kind);
      }
    }
  }

  /** The C++ loop writes exactly the group of the selected recipients. */
  lemma WriteRecipientsIsGroup(rs: seq<Recipient>, field: string, kind: RecipientType)
    ensures WriteRecipientsFrom(rs, field, kind, false) == Group(field, Select(rs, kind))
  {
    WriteRecipientsFromIsGroup(rs, field, kind);
  }

  /** A non-empty group opens with `field: ` and ends with CRLF. */
  lemma GroupShape(field: string, ms: seq<Recipient>)
    ensures var g := Group(field, ms);
            (g == "" <==> ms == []) && (g != "" ==> field + ": " <= g && EndsWith(g, "\r\n"))
  {
    if ms != [] {
      var head := field + ": " + Entry(ms[0]) + "\r\n";
      assert Group(field, ms) == head + Continued(ms[1..]);
      PrefixOfAppend(field + ": ", field + ": " + Entry(ms[0]), "\r\n");
      PrefixOfAppend(field + ": ", head, Continued(ms[1..]));
      ContinuedEndsWithCrlf(ms[1..]);
      if Continued(ms[1..]) == "" {
        assert head + Continued(ms[1..]) == head;
      } else {
        EndsWithAppend(head, Continued(ms[1..]), "\r\n");
      }
    }
  }

  lemma {:induction false} ContinuedEndsWithCrlf(ms: seq<Recipient>)
    ensures Continued(ms) == "" || EndsWith(Continued(ms), "\r\n")
    decreases |ms|
  {
    if |ms| > 0 {
      ContinuedEndsWithCrlf(ms[1..]);
      var head := ", " + Entry(ms[0]) + "\r\n";
      if Continued(ms[1..]) == "" {
        assert Continued(ms) == head;
      } else {
        EndsWithAppend(head, Continued(ms[1..]), "\r\n");
      }
    }
  }

  lemma {:induction false} SelectAppend(rs: seq<Recipient>, r: Recipient, kind: RecipientType)
    ensures Select(rs + [r], kind) == Select(rs, kind) + (if r.kind == kind then [r] else [])
    decreases |rs|
  {
    var t: seq<Recipient> := if r.kind == kind then [r] else [];
    if |rs| == 0 {
      assert rs + [r] == [r];
      assert Select([r], kind) == t + Select([], kind);
    } else {
      var h: seq<Recipient> := if rs[0].kind == kind then [rs[0]] else [];
      assert (rs + [r])[0] == rs[0];
      assert (rs + [r])[1..] == rs[1..] + [r];
      SelectAppend(rs[1..], r, kind);
      calc {
        Select(rs + [r], kind);
        h + Select(rs[1..] + [r], kind);
        h + (Select(rs[1..], kind) + t);
        (h + Select(rs[1..], kind)) + t;
        Select(rs, kind) + t;
      }
    }
  }

  lemma {:induction false} ContinuedAppend(ms: seq<Recipient>, m: Recipient)
    ensures Continued(ms + [m]) == Continued(ms) + ", " + Entry(m) + "\r\n"
    decreases |ms|
  {
    if |ms| == 0 {
      assert ms + [m] == [m];
    } else {
      var ms' := ms + [m];
      assert ms'[0] == ms[0] && ms'[1..] == ms[1..] + [m];
      ContinuedAppend(ms[1..], m);
      var head := ", " + Entry(ms[0]) + "\r\n";
      assert Continued(ms') == head + (Continued(ms[1..]) + ", " + Entry(m) + "\r\n");
      var y := Continued(ms[1..]);
      AppendAssoc(head, y + ", " + Entry(m), "\r\n");
      AppendAssoc(head, y + ", ", Entry(m));
      AppendAssoc(head, y, ", ");
    }
  }

  /** Adding a recipient changes only its own type's group: the group is
      opened with it when it is the first of its type, and otherwise it is
      appended after ", ". */
  lemma {:induction false} WriteRecipientsAppend(rs: seq<Recipient>, r: Recipient, field: string, kind: RecipientType)
    ensures r.kind != kind ==> WriteRecipients(rs + [r], field, kind) == WriteRecipients(rs, field, kind)
    ensures r.kind == kind && WriteRecipients(rs, field, kind) == "" ==>
              WriteRecipients(rs + [r], field, kind) == field + ": " + Entry(r) + "\r\n"
    ensures r.kind == kind && WriteRecipients(rs, field, kind) != "" ==>
              WriteRecipients(rs + [r], field, kind) == WriteRecipients(rs, field, kind) + ", " + Entry(r) + "\r\n"
  {
    WriteRecipientsIsGroup(rs, field, kind);
    WriteRecipientsIsGroup(rs + [r], field, kind);
    SelectAppend(rs, r, kind);
    if r.kind == kind {
      GroupAppend(field, Select(rs, kind), r);
    } else {
      assert Select(rs + [r], kind) == Select(rs, kind) + [];
      assert Select(rs, kind) + [] == Select(rs, kind);
    }
  }

  lemma {:induction false} GroupAppend(field: string, ms: seq<Recipient>, r: Recipient)
    ensures ms == [] ==> Group(field, ms + [r]) == field + ": " + Entry(r) + "\r\n"
    ensures ms != [] ==> Group(field, ms + [r]) == Group(field, ms) + ", " + Entry(r) + "\r\n"
  {
    if ms == [] {
      assert ms + [r] == [r];
    } else {
      var ms' := ms + [r];
      assert ms'[0] == ms[0] && ms'[1..] == ms[1..] + [r];
      ContinuedAppend(ms[1..], r);
      var head := field + ": " + Entry(ms[0]) + "\r\n";
      var y := Continued(ms[1..]);
      assert Group(field, ms') == head + (y + ", " + Entry(r) + "\r\n");
      AppendAssoc(head, y + ", " + Entry(r), "\r\n");
      AppendAssoc(head, y + ", ", Entry(r));
      AppendAssoc(head, y, ", ");
    }
  }

  /** The MIME lines, written only when a content type is set. */
  function MimeHeaders(contentType: string): string {
    if contentType != "" then "MIME-Version: 1.0\r\n" + "Content-Type: " + contentType + "\r\n" else ""
  }

  /** Everything before the Subject line. */
  function Headers(b: Builder): string {
    WriteRecipient("From", b.sender.address, b.sender.name)
    + WriteRecipients(b.recipients, "To", Primary)
    + WriteRecipients(b.recipients, "Cc", CarbonCopy)
    + WriteRecipients(b.recipients, "Bcc", Blind)
    + MimeHeaders(b.contentType)
  }

  /** The Subject line, the blank line, the body and the end-of-data marker. */
  function SubjectAndBody(b: Builder): string {
    "Subject: " + b.subject + "\r\n\r\n" + b.body + "\r\n."
  }

  /** The whole DATA payload, as written in one WriteLine. */
  function Payload(b: Builder): string {
    Headers(b) + SubjectAndBody(b)
  }

  /** The payload opens with the From line and closes with the Subject line,
      a blank line, the body and the end-of-data marker. */
  lemma PayloadEnds(b: Builder)
    ensures "From: " + b.sender.address <= Payload(b)
    ensures EndsWith(Payload(b), "Subject: " + b.subject + "\r\n\r\n" + b.body + "\r\n.")
  {
    var p := "From: " + b.sender.address;
    assert p <= Headers(b) by {
      var from := WriteRecipient("From", b.sender.address, b.sender.name);
      var to := from + WriteRecipients(b.recipients, "To", Primary);
      var cc := to + WriteRecipients(b.recipients, "Cc", CarbonCopy);
      var bcc := cc + WriteRecipients(b.recipients, "Bcc", Blind);
      PrefixOfAppend(p, from, WriteRecipients(b.recipients, "To", Primary));
      PrefixOfAppend(p, to, WriteRecipients(b.recipients, "Cc", CarbonCopy));
      PrefixOfAppend(p, cc, WriteRecipients(b.recipients, "Bcc", Blind));
      PrefixOfAppend(p, bcc, MimeHeaders(b.contentType));
    }
    PrefixOfAppend(p, Headers(b), SubjectAndBody(b));
    assert EndsWith(SubjectAndBody(b), SubjectAndBody(b)) by {
      assert SubjectAndBody(b)[0..] == SubjectAndBody(b);
    }
    EndsWithAppend(Headers(b), SubjectAndBody(b), SubjectAndBody(b));
  }

  /** The payload's header block lists the recipients grouped by type in the
      fixed order To, Cc, Bcc, each group holding exactly that type's
      recipients in insertion order, and the MIME lines only when a content
      type is set. */
  lemma {:induction false} PayloadLayout(b: Builder)
    ensures Payload(b) ==
              WriteRecipient("From", b.sender.address, b.sender.name)
              + Group("To", Select(b.recipients, Primary))
              + Group("Cc", Select(b.recipients, CarbonCopy))
              + Group("Bcc", Select(b.recipients, Blind))
              + MimeHeaders(b.contentType)
              + SubjectAndBody(b)
  {
    WriteRecipientsIsGroup(b.recipients, "To", Primary);
    WriteRecipientsIsGroup(b.recipients, "Cc", CarbonCopy);
    WriteRecipientsIsGroup(b.recipients, "Bcc", Blind);
  }

  /** A builder with no recipients and no content type sends just the From
      line, the Subject line, the body and the marker; for an empty builder
      that is "From: \r\nSubject: \r\n\r\n\r\n.". */
  lemma PayloadWithoutRecipients(b: Builder)
    requires b.recipients == [] && b.contentType == ""
    ensures Payload(b) == WriteRecipient("From", b.sender.address, b.sender.name) + SubjectAndBody(b)
    ensures IsEmptyMessage(b) ==> Payload(b) == "From: \r\nSubject: \r\n\r\n\r\n."
  {
    PayloadLayout(b);
  }
}

=== FILE: scenarios.dfy ===
/**
 The library's own usage scenarios, stated over the model: the message the
 single-email scenario composes and the payload it must produce, a server
 that rejects the greeting, and an empty message sent after NewEmail.
 */
module Scenarios {
  import opened Adapter
  import opened Base64
  import opened Message
  import opened Format
  import Session
  import Transaction
  import Smtp

  const TestUser: seq<Octet> := "username"
  const TestPassword: seq<Octet> := "password"

  /** NewEmail().SetSender(..).AddRecipient(..) x3 .SetSubject(..).SetBody(..) */
  function SingleEmailEdits(): seq<Edit> {
    [ SenderEdit("from@example.com"),
      RecipientEdit("to@example.com"),
      RecipientEdit("cc@example.com", "joe smith", CarbonCopy),
      RecipientEdit("bcc@example.com", "jane smith", Blind),
      SubjectEdit("Subject"),
      BodyEdit("This is the body.") ]
  }

  function SingleEmailRecipients(): seq<Recipient> {
    [ Recipient("to@example.com", "", Primary),
      Recipient("cc@example.com", "joe smith", CarbonCopy),
      Recipient("bcc@example.com", "jane smith", Blind) ]
  }

  /** The chain fills in the builder field by field; omitted names default
      to "" and the omitted type to Primary. */
  lemma SingleEmailBuilder()
    ensures Apply(NewBuilder(TestUser, TestPassword), SingleEmailEdits())
         == Builder(SingleEmailRecipients(), Sender("from@example.com", ""), "Subject", "This is the body.", "",
                    TestUser, TestPassword)
  {
    var e := SingleEmailEdits();
    var b0 := NewBuilder(TestUser, TestPassword);
    var b1 := ApplyEdit(b0, e[0]);
    var b2 := ApplyEdit(b1, e[1]);
    var b3 := ApplyEdit(b2, e[2]);
    var b4 := ApplyEdit(b3, e[3]);
    var b5 := ApplyEdit(b4, e[4]);
    var b6 := ApplyEdit(b5, e[5]);
    assert Apply(b6, e[6..]) == b6;
    assert Apply(b5, e[5..]) == b6;
    assert Apply(b4, e[4..]) == b6;
    assert Apply(b3, e[3..]) == b6;
    assert Apply(b2, e[2..]) == b6;
    assert Apply(b1, e[1..]) == b6;
    assert b4.recipients == SingleEmailRecipients();
  }

  /** Each recipient lands in its own group, so each group has one entry. */
  lemma SingleEmailGroups()
    ensures Select(SingleEmailRecipients(), Primary) == [SingleEmailRecipients()[0]]
    ensures Select(SingleEmailRecipients(), CarbonCopy) == [SingleEmailRecipients()[1]]
    ensures Select(SingleEmailRecipients(), Blind) == [SingleEmailRecipients()[2]]
  {
    var rs := SingleEmailRecipients();
    assert rs[1..][1..][1..] == [];
  }

  /** A group of one recipient is the field, its entry and CRLF. */
  lemma SingleGroup(field: string, r: Recipient)
    ensures Group(field, [r]) == field + ": " + Entry(r) + "\r\n"
  {
    GroupAppend(field, [], r);
  }

  lemma FromLine()
    ensures WriteRecipient("From", "from@example.com", "") == "From: from@example.com\r\n"
  {
  }

  /** A named sender renders the other way round from a recipient: the
      address first, then the name in angle brackets. */
  lemma NamedFromLine()
    ensures WriteRecipient("From", "from@example.com", "joe smith") == "From: from@example.com <joe smith>\r\n"
  {
    assert "From" + ": " + "from@example.com" + " <" + "joe smith" + ">" + "\r\n" == "From: from@example.com <joe smith>\r\n";
  }

  lemma ToLine()
    ensures Group("To", [SingleEmailRecipients()[0]]) == "To: to@example.com\r\n"
  {
    SingleGroup("To", SingleEmailRecipients()[0]);
  }

  /** A group of one named recipient: `field: name <address>` and CRLF. */
  lemma NamedGroup(field: string, r: Recipient)
    requires |r.name| > 0
    ensures Group(field, [r]) == field + ": " + r.name + " <" + r.address + ">" + "\r\n"
  {
    SingleGroup(field, r);
  }

  /** Kept apart from the scenario that uses it: evaluated there, next to the
      builder's definitions, the literal costs the solver far more. */
  lemma CcLiteral()
    ensures "Cc" + ": " + "joe smith" + " <" + "cc@example.com" + ">" + "\r\n" == "Cc: joe smith <cc@example.com>\r\n"
  {
  }

  /** Kept apart from the scenario that uses it: evaluated there, next to the
      builder's definitions, the literal costs the solver far more. */
  lemma BccLiteral()
    ensures "Bcc" + ": " + "jane smith" + " <" + "bcc@example.com" + ">" + "\r\n" == "Bcc: jane smith <bcc@example.com>\r\n"
  {
  }

  lemma CcLine()
    ensures Group("Cc", [SingleEmailRecipients()[1]]) == "Cc: joe smith <cc@example.com>\r\n"
  {
    NamedGroup("Cc", SingleEmailRecipients()[1]);
    CcLiteral();
  }

  lemma BccLine()
    ensures Group("Bcc", [SingleEmailRecipients()[2]]) == "Bcc: jane smith <bcc@example.com>\r\n"
  {
    NamedGroup("Bcc", SingleEmailRecipients()[2]);
    BccLiteral();
  }

  /** A payload with no MIME lines, given its header lines and the subject
      and body part. */
  lemma PayloadOfParts(b: Builder, from: string, to: string, cc: string, bcc: string, rest: string)
    requires b.contentType == ""
    requires WriteRecipient("From", b.sender.address, b.sender.name) == from
    requires Group("To", Select(b.recipients, Primary)) == to
    requires Group("Cc", Select(b.recipients, CarbonCopy)) == cc
    requires Group("Bcc", Select(b.recipients, Blind)) == bcc
    requires SubjectAndBody(b) == rest
    ensures Payload(b) == from + to + cc + bcc + rest
  {
    PayloadLayout(b);
    assert from + to + cc + bcc + "" == from + to + cc + bcc;
  }

  /** Kept apart from the scenario that uses it: evaluated there, next to the
      builder's definitions, the literal costs the solver far more. */
  lemma SubjectLiteral()
    ensures "Subject: " + "Subject" + "\r\n\r\n" + "This is the body." + "\r\n."
         == "Subject: Subject\r\n\r\n" + "This is the body.\r\n."
  {
  }

  /** The payload the single-email scenario writes after DATA. */
  lemma SingleEmailPayload()
    ensures Payload(Apply(NewBuilder(TestUser, TestPassword), SingleEmailEdits()))
         == "From: from@example.com\r\n"
            + "To: to@example.com\r\n"
            + "Cc: joe smith <cc@example.com>\r\n"
            + "Bcc: jane smith <bcc@example.com>\r\n"
            + ("Subject: Subject\r\n\r\n"
            + "This is the body.\r\n.")
  {
    SingleEmailBuilder();
    var b := Apply(NewBuilder(TestUser, TestPassword), SingleEmailEdits());
    SingleEmailGroups();
    FromLine();
    ToLine();
    CcLine();
    BccLine();
    SubjectLiteral();
    PayloadOfParts(b, "From: from@example.com\r\n", "To: to@example.com\r\n",
                   "Cc: joe smith <cc@example.com>\r\n", "Bcc: jane smith <bcc@example.com>\r\n",
                   "Subject: Subject\r\n\r\n" + "This is the body.\r\n.");
  }

  /** The server's greeting is rejected: Send returns that error after the
      connect, the failed read and exactly one Disconnect. */
  lemma GreetingRejected(b: Builder)
    ensures var r := Transaction.Send(Oracle([true, false], 0, "TestHost"), b);
            && r.trace == [Call.Connect, Read(220), Disconnect]
            && r.status == Error(Read(220))
  {
    var o := Oracle([true, false], 0, "TestHost");
    assert Passes(o, 0) && !Passes(Advance(o, 1), 0);
    Session.StartTlsFailsAt(Advance(o, 1), b.username, b.password, 0);
  }

  /** A message sent right after NewEmail with no setters: MAIL FROM with an
      empty address, no RCPT TO, and the bare payload. */
  lemma EmptyMessageAfterNewEmail(s: Smtp.Smtp, earlier: seq<Edit>)
    requires Smtp.Wired(s)
    ensures var b := Smtp.Compose(Smtp.Compose(s, earlier), []).builder;
            && Transaction.BatchSteps(b)
               == [WriteLine("MAIL FROM: <>"), Read(250), WriteLine("DATA"), Read(354),
                   WriteLine("From: \r\nSubject: \r\n\r\n\r\n."), Read(250)]
  {
    Smtp.ComposeForgetsEarlierMessage(s, earlier, []);
    var b := Smtp.Compose(Smtp.Compose(s, earlier), []).builder;
    assert b == NewBuilder(s.username, s.password);
    PayloadWithoutRecipients(b);
    assert Transaction.MailLine(b.sender.address) == "MAIL FROM: <>";
    assert Transaction.RcptSteps(b.recipients) == [];
  }

  /** With the fixture's credentials the AUTH PLAIN answer is the line the
      scenario expects after the 334 challenge. */
  lemma FixtureAuthLine()
    ensures Session.AuthLine(TestUser, TestPassword) == "AHVzZXJuYW1lAHBhc3N3b3Jk"
  {
    assert Session.AuthBlob(TestUser, TestPassword) == "\0username\0password";
    EncodeCredentialExample();
  }
}

=== FILE: seqs.dfy ===
/**
 Facts about sequences that the trace modules (sequences of adapter calls) and
 the text modules (strings) both rely on.
 */
module Seqs {

  /** A prefix of a sequence is a prefix of any extension of it. */
  lemma PrefixOfAppend<T>(p: seq<T>, a: seq<T>, b: seq<T>)
    requires p <= a
    ensures p <= a + b
  {
    assert (a + b)[..|a|] == a;
  }

  /** Concatenation is associative. */
  lemma AppendAssoc<T>(a: seq<T>, b: seq<T>, c: seq<T>)
    ensures a + (b + c) == a + b + c
  {
  }

  /** A value absent from a sequence is absent from every prefix of it. */
  lemma PrefixExcludes<T>(t: seq<T>, s: seq<T>, x: T)
    requires t <= s && x !in s
    ensures x !in t
  {
  }
}

=== FILE: session.dfy ===
/**
 The session engine: opening an authenticated session (connect, the STARTTLS
 upgrade of RFC 3207 section 4, HELO, and SASL PLAIN authentication through the
 AUTH command of RFC 4954 section 4, with the credential built as in RFC 4616
 section 2) and closing it with QUIT. Reply codes are those of RFC 5321
 section 4.2: 220 service ready, 250 completed, 334 server challenge, 235
 authentication succeeded, 221 closing.
 */
module Session {
  import opened Adapter
  import opened Seqs
  import Base64

  /** The PLAIN message of RFC 4616: an empty authorization identity, NUL, the
      user name, NUL, the password. */
  function AuthBlob(username: seq<Base64.Octet>, password: seq<Base64.Octet>): (blob: seq<Base64.Octet>)
    ensures |blob| == |username| + |password| + 2
    ensures blob[0] == '\0' && blob[|username| + 1] == '\0'
    ensures blob[1..|username| + 1] == username && blob[|username| + 2..] == password
  {
    ['\0'] + username + ['\0'] + password
  }

  /** The base64 line sent in answer to the 334 challenge. */
  function AuthLine(username: seq<Base64.Octet>, password: seq<Base64.Octet>): string {
    Base64.Encode(AuthBlob(username, password))
  }

  /** The handshake after the TCP connection, in order; `host` is what
      Hostname reports once TLS is on. */
  function HandshakeSteps(host: string, username: seq<Base64.Octet>, password: seq<Base64.Octet>): seq<Call> {
    [ Read(220),
      WriteLine("STARTTLS"),
      Read(220),
      EnableTls,
      Hostname,
      WriteLine("HELO " + host),
      Read(250),
      WriteLine("AUTH PLAIN"),
      Read(334),
      WriteLine(AuthLine(username, password)),
      Read(235) ]
  }

  /** The handshake consumes ten outcomes: all its calls but Hostname can fail. */
  lemma HandshakeFallibleCount(host: string, username: seq<Base64.Octet>, password: seq<Base64.Octet>)
    ensures FallibleCount(HandshakeSteps(host, username, password)) == 10
  {
    var steps := HandshakeSteps(host, username, password);
    assert steps == steps[..4] + [Hostname] + steps[5..];
    AllFallibleCount(steps[..4]);
    AllFallibleCount(steps[5..]);
    FallibleCountAppend(steps[..4], [Hostname]);
    FallibleCountAppend(steps[..4] + [Hostname], steps[5..]);
  }

  /** Hostname, step 4, is the handshake's one call without a status. */
  lemma HandshakeShape(host: string, username: seq<Base64.Octet>, password: seq<Base64.Octet>)
    ensures var steps := HandshakeSteps(host, username, password);
            && |steps| == 11 && !Fallible(steps[4])
            && forall i :: 0 <= i < |steps| && i != 4 ==> Fallible(steps[i])
  {
  }

  /** Connect's only Disconnect call can be the one it adds itself. */
  lemma HandshakeHasNoDisconnect(host: string, username: seq<Base64.Octet>, password: seq<Base64.Octet>)
    ensures Disconnect !in HandshakeSteps(host, username, password)
    ensures Call.Connect !in HandshakeSteps(host, username, password)
  {
  }

  /** The base64 credential opens with 'A': its first octet is NUL. */
  lemma AuthLineFirst(username: seq<Base64.Octet>, password: seq<Base64.Octet>)
    ensures |AuthLine(username, password)| >= 4
    ensures AuthLine(username, password)[0] == 'A'
  {
    Base64.EncodeFirst(AuthBlob(username, password));
  }

  /** No handshake line is QUIT. */
  lemma HandshakeHasNoQuit(host: string, username: seq<Base64.Octet>, password: seq<Base64.Octet>)
    ensures WriteLine("QUIT") !in HandshakeSteps(host, username, password)
  {
    AuthLineFirst(username, password);
    assert ("HELO " + host)[0] == 'H';
  }

  /** STARTTLS, HELO and AUTH PLAIN, each step checked before the next. It
      never disconnects; its trace is a prefix of the handshake, and it
      succeeds exactly when the ten outcomes it needs are successes. */
  function StartTls(o: Oracle, username: seq<Base64.Octet>, password: seq<Base64.Octet>): (r: Run)
    ensures r.status.Ok? <==> PassesAll(o, 10)
    ensures r.status.Ok? ==> r.after == Advance(o, 10)
    ensures Disconnect !in r.trace && WriteLine("QUIT") !in r.trace
    ensures FailFast(o, HandshakeSteps(o.hostname, username, password), r)
  {
    var steps := HandshakeSteps(o.hostname, username, password);
    HandshakeFallibleCount(o.hostname, username, password);
    ExecAllPass(o, steps);
    HandshakeHasNoDisconnect(o.hostname, username, password);
    HandshakeHasNoQuit(o.hostname, username, password);
    PrefixExcludes(Exec(o, steps).trace, steps, Disconnect);
    PrefixExcludes(Exec(o, steps).trace, steps, WriteLine("QUIT"));
    Exec(o, steps)
  }

  /** Outcome j is the handshake's first rejection: the handshake stops right
      after the call that consumed it (step j, or step j + 1 once Hostname has
      been passed) and returns that call's error. */
  lemma StartTlsFailsAt(o: Oracle, username: seq<Base64.Octet>, password: seq<Base64.Octet>, j: nat)
    requires j < 10
    requires PassesAll(o, j) && !Passes(o, j)
    ensures var k := if j < 4 then j else j + 1;
            var steps := HandshakeSteps(o.hostname, username, password);
            && StartTls(o, username, password).trace == steps[..k + 1]
            && StartTls(o, username, password).status == Error(steps[k])
  {
    var steps := HandshakeSteps(o.hostname, username, password);
    HandshakeShape(o.hostname, username, password);
    FailFastCutsAroundSilent(o, steps, StartTls(o, username, password), 4, j);
  }

  /** Connect and authenticate. When the TCP connect itself fails nothing
      else is called, not even Disconnect; when a later step fails, exactly
      one Disconnect follows it (ConnectFailure gives the shape). */
  function Connect(o: Oracle, username: seq<Base64.Octet>, password: seq<Base64.Octet>): (r: Run)
    ensures !Passes(o, 0) ==> r.trace == [Call.Connect] && r.status == Error(Call.Connect)
    ensures r.status.Ok? <==> PassesAll(o, 11)
    ensures r.status.Ok? ==> r.trace == [Call.Connect] + HandshakeSteps(o.hostname, username, password)
    ensures r.status.Ok? ==> r.after == Advance(o, 11)
    ensures Count(r.trace, Disconnect) == (if Passes(o, 0) && r.status.Error? then 1 else 0)
  {
    if !Passes(o, 0) then
      Run([Call.Connect], Error(Call.Connect), Advance(o, 1))
    else
      var t := StartTls(Advance(o, 1), username, password);
      AfterTcpConnectRuns(o, t, HandshakeSteps(o.hostname, username, password));
      AfterTcpConnect(t)
  }

  /** What AfterTcpConnect makes of a handshake run that needs the ten
      outcomes after the TCP connect's and never disconnects. */
  lemma AfterTcpConnectRuns(o: Oracle, t: Run, steps: seq<Call>)
    requires Passes(o, 0)
    requires t.status.Ok? <==> PassesAll(Advance(o, 1), 10)
    requires t.status.Ok? ==> t.trace == steps && t.after == Advance(Advance(o, 1), 10)
    requires Disconnect !in t.trace
    ensures var r := AfterTcpConnect(t);
            && (r.status.Ok? <==> PassesAll(o, 11))
            && (r.status.Ok? ==> r.trace == [Call.Connect] + steps && r.after == Advance(o, 11))
            && Count(r.trace, Disconnect) == (if r.status.Error? then 1 else 0)
  {
    AdvancePasses(o, 1, 10);
  }

  /** The run of Connect once the TCP connection is up: the Connect call, the
      handshake's calls, and a Disconnect only when the handshake failed. */
  function AfterTcpConnect(t: Run): (r: Run)
    ensures r.status == t.status && r.after == t.after
    ensures r.trace == [Call.Connect] + t.trace + (if t.status.Error? then [Disconnect] else [])
    ensures Count(r.trace, Disconnect) == Count(t.trace, Disconnect) + (if t.status.Error? then 1 else 0)
  {
    var head := [Call.Connect] + t.trace;
    CountAppend([Call.Connect], t.trace, Disconnect);
    if t.status.Error? then
      CountAppend(head, [Disconnect], Disconnect);
      Run(head + [Disconnect], t.status, t.after)
    else
      assert head + [] == head;
      Run(head, t.status, t.after)
  }

  /** Connect never writes QUIT, whatever the outcomes. */
  lemma ConnectHasNoQuit(o: Oracle, username: seq<Base64.Octet>, password: seq<Base64.Octet>)
    ensures WriteLine("QUIT") !in Connect(o, username, password).trace
  {
    if Passes(o, 0) {
      var t := StartTls(Advance(o, 1), username, password);
      assert WriteLine("QUIT") !in t.trace;
    }
  }

  /** The shape of a Connect run that failed after the TCP connect: Connect,
      a prefix of the handshake ending at the failed call, one Disconnect. */
  predicate FailedAfterTcpConnect(r: Run, steps: seq<Call>) {
    && |r.trace| >= 3
    && r.trace[0] == Call.Connect
    && Last(r.trace) == Disconnect
    && r.trace[1..|r.trace| - 1] <= steps
    && r.status == Error(r.trace[|r.trace| - 2])
  }

  /** A failure after the TCP connect: the trace is Connect, the handshake cut
      after the failing step, and one Disconnect; that step's error is
      returned unchanged. */
  lemma ConnectFailure(o: Oracle, username: seq<Base64.Octet>, password: seq<Base64.Octet>)
    requires Passes(o, 0) && !PassesAll(o, 11)
    ensures FailedAfterTcpConnect(Connect(o, username, password), HandshakeSteps(o.hostname, username, password))
  {
    var t := StartTls(Advance(o, 1), username, password);
    AdvancePasses(o, 1, 10);
    var trace := [Call.Connect] + t.trace + [Disconnect];
    assert trace[1..|trace| - 1] == t.trace;
  }

  /** After a good TCP connect, outcome j of the handshake is the first
      rejection: Connect's trace is the success trace cut after the call that
      consumed it, followed by one Disconnect, and that call's error is
      returned. */
  lemma ConnectFailsAt(o: Oracle, username: seq<Base64.Octet>, password: seq<Base64.Octet>, j: nat)
    requires j < 10
    requires Passes(o, 0)
    requires PassesAll(Advance(o, 1), j) && !Passes(Advance(o, 1), j)
    ensures var k := if j < 4 then j else j + 1;
            var steps := HandshakeSteps(o.hostname, username, password);
            && Connect(o, username, password).trace == [Call.Connect] + steps[..k + 1] + [Disconnect]
            && Connect(o, username, password).status == Error(steps[k])
  {
    StartTlsFailsAt(Advance(o, 1), username, password, j);
  }

  /** With every outcome a success, Connect makes exactly these calls, the
      HELO naming the host Hostname reported after EnableTls. */
  lemma ConnectSuccessTrace(o: Oracle, username: seq<Base64.Octet>, password: seq<Base64.Octet>)
    requires PassesAll(o, 11)
    ensures Connect(o, username, password).status == Ok
    ensures Connect(o, username, password).trace ==
              [ Call.Connect,
                Read(220),
                WriteLine("STARTTLS"),
                Read(220),
                EnableTls,
                Hostname,
                WriteLine("HELO " + o.hostname),
                Read(250),
                WriteLine("AUTH PLAIN"),
                Read(334),
                WriteLine(AuthLine(username, password)),
                Read(235) ]
  {
    assert Connect(o, username, password).trace == [Call.Connect] + HandshakeSteps(o.hostname, username, password);
    ConnectThenHandshake(o.hostname, username, password);
  }

  /** The handshake written out call by call; a separate lemma so that its
      callers see the list without unfolding the AUTH line. */
  lemma ConnectThenHandshake(host: string, username: seq<Base64.Octet>, password: seq<Base64.Octet>)
    ensures [Call.Connect] + HandshakeSteps(host, username, password)
         == [ Call.Connect, Read(220), WriteLine("STARTTLS"), Read(220), EnableTls, Hostname,
              WriteLine("HELO " + host), Read(250), WriteLine("AUTH PLAIN"), Read(334),
              WriteLine(AuthLine(username, password)), Read(235) ]
  {
  }

  /** QUIT, then the 221 reply only if the write went through, then always
      exactly one Disconnect; the QUIT/221 status is returned. */
  function Quit(o: Oracle): (r: Run)
    ensures Count(r.trace, Disconnect) == 1 && Last(r.trace) == Disconnect
    ensures !Passes(o, 0) ==> r.trace == [WriteLine("QUIT"), Disconnect] && r.status == Error(WriteLine("QUIT"))
    ensures Passes(o, 0) ==> r.trace == [WriteLine("QUIT"), Read(221), Disconnect]
    ensures r.status.Ok? <==> Passes(o, 0) && Passes(o, 1)
    ensures Passes(o, 0) && !Passes(o, 1) ==> r.status == Error(Read(221))
  {
    var q := Exec(o, [WriteLine("QUIT"), Read(221)]);
    ExecAllPass(o, [WriteLine("QUIT"), Read(221)]);
    CountAppend(q.trace, [Disconnect], Disconnect);
    Run(q.trace + [Disconnect], q.status, q.after)
  }
}

=== FILE: smtp.dfy ===
/**
 The Smtp facade: it owns the credentials and one builder, hands out the
 builder emptied by NewEmail, and offers Connect and Disconnect for batch use
 (Connect, SendBatch per message, Disconnect).
 */
module Smtp {
  import opened Adapter
  import opened Seqs
  import opened Base64
  import opened Message
  import opened Format
  import Session
  import Transaction

  /** The facade's state: its own copy of the credentials and its builder. */
  datatype Smtp = Smtp(username: seq<Octet>, password: seq<Octet>, builder: Builder)

  /** The builder sends with the credentials the facade was built with. */
  predicate Wired(s: Smtp) {
    s.builder.username == s.username && s.builder.password == s.password
  }

  /** The constructor copies the credentials and builds the builder from the
      same user name and password, so the two always agree. */
  function NewSmtp(username: seq<Octet>, password: seq<Octet>): (s: Smtp)
    ensures s.username == username && s.password == password
    ensures Wired(s)
    ensures IsEmptyMessage(s.builder)
  {
    Smtp(username, password, NewBuilder(username, password))
  }

  /** Empties the builder and hands it out; the credentials stay. */
  function NewEmail(s: Smtp): (r: Smtp)
    ensures IsEmptyMessage(r.builder)
    ensures r.username == s.username && r.password == s.password
    ensures Wired(s) ==> Wired(r)
  {
    s.(builder := Reset(s.builder))
  }

  /** The caller's chain of setters on the builder NewEmail returned. */
  function Compose(s: Smtp, edits: seq<Edit>): (r: Smtp)
    ensures r.username == s.username && r.password == s.password
    ensures Wired(s) ==> Wired(r)
  {
    s.(builder := Apply(NewEmail(s).builder, edits))
  }

  /** Connect and authenticate with the facade's credentials. */
  function Connect(s: Smtp, o: Oracle): (r: Run)
    ensures r.status.Ok? <==> PassesAll(o, 11)
    ensures r.status.Ok? ==> r.trace == [Call.Connect] + Session.HandshakeSteps(o.hostname, s.username, s.password)
    ensures r.status.Ok? ==> Call.Disconnect !in r.trace && r.after == Advance(o, 11)
    ensures !Passes(o, 0) ==> r.trace == [Call.Connect] && r.status == Error(Call.Connect)
    ensures Count(r.trace, Call.Disconnect) == (if Passes(o, 0) && r.status.Error? then 1 else 0)
    ensures Passes(o, 0) && r.status.Error? ==>
              Session.FailedAfterTcpConnect(r, Session.HandshakeSteps(o.hostname, s.username, s.password))
    ensures r == Session.Connect(o, s.username, s.password)
  {
    var c := Session.Connect(o, s.username, s.password);
    assert Passes(o, 0) && c.status.Error? ==>
             Session.FailedAfterTcpConnect(c, Session.HandshakeSteps(o.hostname, s.username, s.password)) by {
      if Passes(o, 0) && c.status.Error? {
        Session.ConnectFailure(o, s.username, s.password);
      }
    }
    c
  }

  /** When the handshake's j-th outcome is rejected (the greeting and the
      TCP connect having passed), Connect stops at the call that consumed it,
      disconnects once, and returns that call's error. */
  lemma ConnectFailsAt(s: Smtp, o: Oracle, j: nat)
    requires j < 10
    requires Passes(o, 0)
    requires PassesAll(Advance(o, 1), j) && !Passes(Advance(o, 1), j)
    ensures var k := if j < 4 then j else j + 1;
            var steps := Session.HandshakeSteps(o.hostname, s.username, s.password);
            && Connect(s, o).trace == [Call.Connect] + steps[..k + 1] + [Call.Disconnect]
            && Connect(s, o).status == Error(steps[k])
  {
    Session.ConnectFailsAt(o, s.username, s.password, j);
  }

  /** QUIT, its 221 reply only if the write went through, and one
      Disconnect, whatever the status; the QUIT/221 status is returned. */
  function Disconnect(o: Oracle): (r: Run)
    ensures Count(r.trace, Call.Disconnect) == 1 && Last(r.trace) == Call.Disconnect
    ensures r.trace[0] == WriteLine("QUIT")
    ensures !Passes(o, 0) ==> r.trace == [WriteLine("QUIT"), Call.Disconnect] && r.status == Error(WriteLine("QUIT"))
    ensures Passes(o, 0) ==> r.trace == [WriteLine("QUIT"), Read(221), Call.Disconnect]
    ensures r.status.Ok? <==> Passes(o, 0) && Passes(o, 1)
    ensures Passes(o, 0) && !Passes(o, 1) ==> r.status == Error(Read(221))
  {
    Session.Quit(o)
  }

  /** A message composed after NewEmail depends only on the credentials and
      the setters called since: nothing of an earlier message survives. */
  lemma ComposeForgetsEarlierMessage(s: Smtp, earlier: seq<Edit>, edits: seq<Edit>)
    requires Wired(s)
    ensures Compose(Compose(s, earlier), edits).builder == Apply(NewBuilder(s.username, s.password), edits)
  {
    ResetForgetsEdits(NewEmail(s).builder, earlier);
    ResetIsFresh(s.builder);
    ResetIsFresh(NewEmail(s).builder);
  }

  /** Sending a freshly composed message authenticates with the facade's
      credentials: whenever the session opens, the AUTH PLAIN line is the
      base64 of NUL, the facade's user name, NUL and its password. */
  lemma SendUsesFacadeCredentials(s: Smtp, edits: seq<Edit>, o: Oracle)
    requires Wired(s)
    requires PassesAll(o, 11)
    ensures var b := Compose(s, edits).builder;
            var t := Transaction.Send(o, b).trace;
            && t[..12] == Connect(s, o).trace
            && t[10] == WriteLine(Encode(['\0'] + s.username + ['\0'] + s.password))
  {
    var b := Compose(s, edits).builder;
    var head := [Call.Connect] + Session.HandshakeSteps(o.hostname, s.username, s.password);
    var c := Session.Connect(o, b.username, b.password);
    assert c.trace == head && Connect(s, o).trace == head;
    var f := Transaction.Finish(c.after, b);
    assert Transaction.Send(o, b).trace == head + f.trace;
    assert head[10] == WriteLine(Encode(['\0'] + s.username + ['\0'] + s.password)) by {
      Session.ConnectThenHandshake(o.hostname, s.username, s.password);
    }
    PrefixOfAppend(head, head, f.trace);
  }

  /** Two messages over one session, as the batch usage does it: Connect,
      SendBatch for each message composed after NewEmail, then Disconnect.
      The first failure ends the run with its status, as RETURN_IF_ERROR
      does: a failed Connect has already disconnected itself, and a failed
      SendBatch is returned without a Disconnect. */
  function SendTwo(s: Smtp, first: seq<Edit>, second: seq<Edit>, o: Oracle): (r: Run)
    ensures r.status.Ok? ==> Count(r.trace, Call.Disconnect) == 1 && Last(r.trace) == Call.Disconnect
    ensures Count(r.trace, Call.Disconnect) <= 1
    ensures !PassesAll(o, 11) ==> r == Connect(s, o)
    ensures var b1 := Transaction.SendBatch(Advance(o, 11), Compose(s, first).builder);
            PassesAll(o, 11) && b1.status.Error? ==> r.status == b1.status && Call.Disconnect !in r.trace
    ensures var b1 := Transaction.SendBatch(Advance(o, 11), Compose(s, first).builder);
            var b2 := Transaction.SendBatch(b1.after, Compose(Compose(s, first), second).builder);
            PassesAll(o, 11) && b1.status.Ok? && b2.status.Error? ==> r.status == b2.status && Call.Disconnect !in r.trace
    ensures var b1 := Transaction.SendBatch(Advance(o, 11), Compose(s, first).builder);
            var b2 := Transaction.SendBatch(b1.after, Compose(Compose(s, first), second).builder);
            PassesAll(o, 11) && b1.status.Ok? && b2.status.Ok? ==> r.status == Disconnect(b2.after).status
  {
    var c := Connect(s, o);
    if c.status.Error? then c
    else
      var m1 := Compose(s, first);
      var b1 := Transaction.SendBatch(c.after, m1.builder);
      Transaction.SendBatchHasNoDisconnect(c.after, m1.builder);
      if b1.status.Error? then Then(c, b1)
      else
        var m2 := Compose(m1, second);
        var b2 := Transaction.SendBatch(b1.after, m2.builder);
        Transaction.SendBatchHasNoDisconnect(b1.after, m2.builder);
        if b2.status.Error? then Then(Then(c, b1), b2)
        else
          var q := Disconnect(b2.after);
          ThenCounts(c, b1, b2, q);
          Then(Then(Then(c, b1), b2), q)
  }

  /** When every outcome succeeds, both messages go over the one session:
      Connect with its handshake, the first transaction, the second, then
      QUIT, its 221 reply and a single Disconnect. */
  lemma SendTwoSuccessTrace(s: Smtp, first: seq<Edit>, second: seq<Edit>, o: Oracle)
    requires PassesAll(o, 11 + (6 + 2 * |Compose(s, first).builder.recipients|)
                             + (6 + 2 * |Compose(Compose(s, first), second).builder.recipients|) + 2)
    ensures var b1, b2 := Compose(s, first).builder, Compose(Compose(s, first), second).builder;
            var r := SendTwo(s, first, second, o);
            && r.status == Ok
            && r.trace == [Call.Connect] + Session.HandshakeSteps(o.hostname, s.username, s.password)
                          + Transaction.BatchSteps(b1) + Transaction.BatchSteps(b2)
                          + [WriteLine("QUIT"), Read(221), Call.Disconnect]
  {
    var m1 := Compose(s, first);
    var m2 := Compose(m1, second);
    var n1 := 6 + 2 * |m1.builder.recipients|;
    var n2 := 6 + 2 * |m2.builder.recipients|;
    AdvancePasses(o, 11, n1 + n2 + 2);
    var c := Connect(s, o);
    assert c.status.Ok? && c.after == Advance(o, 11);
    AdvancePasses(c.after, n1, n2 + 2);
    var b1 := Transaction.SendBatch(c.after, m1.builder);
    assert b1.status.Ok? && b1.after == Advance(c.after, n1);
    AdvancePasses(b1.after, n2, 2);
    var b2 := Transaction.SendBatch(b1.after, m2.builder);
    assert b2.status.Ok? && b2.after == Advance(b1.after, n2);
    assert Passes(b2.after, 0) && Passes(b2.after, 1);
  }

  /** A first message the server rejects ends the batch with the session
      still open: no Disconnect is called. */
  lemma FirstBatchFailureLeavesSessionOpen(s: Smtp, first: seq<Edit>, second: seq<Edit>, o: Oracle)
    requires PassesAll(o, 11)
    requires !PassesAll(Advance(o, 11), 6 + 2 * |Compose(s, first).builder.recipients|)
    ensures SendTwo(s, first, second, o).status.Error?
    ensures Call.Disconnect !in SendTwo(s, first, second, o).trace
  {
    var c := Connect(s, o);
    assert c.status.Ok? && c.after == Advance(o, 11);
    var m1 := Compose(s, first);
    Transaction.SendBatchHasNoDisconnect(c.after, m1.builder);
  }

  /** One run followed by the next on the oracle the first left. */
  function Then(a: Run, b: Run): (r: Run)
    ensures r.trace == a.trace + b.trace && r.status == b.status && r.after == b.after
  {
    Run(a.trace + b.trace, b.status, b.after)
  }

  /** Three runs that do not disconnect, then one that disconnects once, last. */
  lemma ThenCounts(a: Run, b: Run, c: Run, d: Run)
    requires Call.Disconnect !in a.trace && Call.Disconnect !in b.trace && Call.Disconnect !in c.trace
    requires Count(d.trace, Call.Disconnect) == 1 && Last(d.trace) == Call.Disconnect
    ensures var r := Then(Then(Then(a, b), c), d);
            Count(r.trace, Call.Disconnect) == 1 && Last(r.trace) == Call.Disconnect
  {
    CountAppend(a.trace, b.trace, Call.Disconnect);
    CountAppend(a.trace + b.trace, c.trace, Call.Disconnect);
    CountAppend(a.trace + b.trace + c.trace, d.trace, Call.Disconnect);
  }

  /** The second message of a batch is the one its own setters describe: it
      carries none of the first message's recipients, and its transaction
      announces exactly its own. */
  lemma SecondMessageIsFresh(s: Smtp, first: seq<Edit>, second: seq<Edit>)
    requires Wired(s)
    ensures Compose(Compose(s, first), second).builder == Apply(NewBuilder(s.username, s.password), second)
    ensures |Compose(Compose(s, first), second).builder.recipients| == CountRecipientEdits(second)
    ensures Transaction.RcptCount(Transaction.BatchSteps(Compose(Compose(s, first), second).builder)) == CountRecipientEdits(second)
  {
    ComposeForgetsEarlierMessage(s, first, second);
    Transaction.RcptCountBatch(Compose(Compose(s, first), second).builder);
  }
}

=== FILE: transaction.dfy ===
/**
 The message transaction (MAIL FROM, one RCPT TO per recipient, DATA, the
 payload) on an open session, and the single-shot Send that wraps it in
 Connect and QUIT with its disconnect-exactly-once rules.
 */
module Transaction {
  import opened Adapter
  import opened Seqs
  import opened Message
  import opened Format
  import Session

  function MailLine(address: string): string {
    "MAIL FROM: <" + address + ">"
  }

  function RcptLine(address: string): string {
    "RCPT TO: <" + address + ">"
  }

  /** One RCPT TO and its 250 reply per recipient, in insertion order. */
  function RcptSteps(rs: seq<Recipient>): (steps: seq<Call>)
    ensures |steps| == 2 * |rs|
    decreases |rs|
  {
    if |rs| == 0 then []
    else [WriteLine(RcptLine(rs[0].address)), Read(250)] + RcptSteps(rs[1..])
  }

  lemma {:induction false} RcptStepsAt(rs: seq<Recipient>, i: nat)
    requires i < |rs|
    ensures RcptSteps(rs)[2 * i] == WriteLine(RcptLine(rs[i].address))
    ensures RcptSteps(rs)[2 * i + 1] == Read(250)
    decreases i
  {
    if i > 0 {
      RcptStepsAt(rs[1..], i - 1);
      assert rs[1..][i - 1] == rs[i];
    }
  }

  /** Step 2i is recipient i's RCPT TO and step 2i + 1 its 250 reply. */
  lemma RcptStepsIndex(rs: seq<Recipient>)
    ensures forall i :: 0 <= i < |rs| ==>
              RcptSteps(rs)[2 * i] == WriteLine(RcptLine(rs[i].address)) && RcptSteps(rs)[2 * i + 1] == Read(250)
  {
    forall i | 0 <= i < |rs|
      ensures RcptSteps(rs)[2 * i] == WriteLine(RcptLine(rs[i].address)) && RcptSteps(rs)[2 * i + 1] == Read(250)
    {
      RcptStepsAt(rs, i);
    }
  }

  /** Every RCPT step is a write or a read, so every one can fail. */
  lemma RcptStepsIo(rs: seq<Recipient>)
    ensures AllIo(RcptSteps(rs)) && AllFallible(RcptSteps(rs))
  {
    var steps := RcptSteps(rs);
    forall i | 0 <= i < |steps| ensures IsIo(steps[i]) {
      RcptStepsAt(rs, i / 2);
    }
  }

  /** A WriteLine or a Read: the only calls a transaction makes. */
  predicate IsIo(c: Call) {
    c.WriteLine? || c.Read?
  }

  predicate AllIo(calls: seq<Call>) {
    forall i :: 0 <= i < |calls| ==> IsIo(calls[i])
  }

  /** The DATA command, its 354 reply, the payload and its 250 reply. */
  function DataSteps(b: Builder): seq<Call> {
    [WriteLine("DATA"), Read(354), WriteLine(Payload(b)), Read(250)]
  }

  /** The whole transaction in order: the steps SendBatch runs. */
  function BatchSteps(b: Builder): (steps: seq<Call>)
    ensures |steps| == 6 + 2 * |b.recipients|
  {
    [WriteLine(MailLine(b.sender.address)), Read(250)] + RcptSteps(b.recipients) + DataSteps(b)
  }

  /** Step i of the transaction: MAIL FROM and its reply, then the RCPT steps,
      then DATA and the payload. */
  lemma BatchStepsAt(b: Builder, i: nat)
    requires i < 6 + 2 * |b.recipients|
    ensures var n := |b.recipients|;
            var s := BatchSteps(b)[i];
            && (i == 0 ==> s == WriteLine(MailLine(b.sender.address)))
            && (i == 1 ==> s == Read(250))
            && (2 <= i < 2 + 2 * n ==> s == RcptSteps(b.recipients)[i - 2])
            && (2 + 2 * n <= i ==> s == DataSteps(b)[i - 2 - 2 * n])
  {
  }

  lemma BatchStepsIo(b: Builder)
    ensures AllIo(BatchSteps(b)) && AllFallible(BatchSteps(b))
  {
    RcptStepsIo(b.recipients);
    var steps := BatchSteps(b);
    forall i | 0 <= i < |steps| ensures IsIo(steps[i]) {
      BatchStepsAt(b, i);
    }
  }

  /** Sends the current message over an open session. Every call is a
      WriteLine or a Read (it never connects, upgrades or disconnects), the
      trace is a prefix of the transaction, the first failing call ends it
      with that call's error, and it succeeds exactly when all 6 + 2n
      outcomes it needs (n recipients) are successes. */
  function SendBatch(o: Oracle, b: Builder): (r: Run)
    ensures r.trace <= BatchSteps(b)
    ensures AllIo(r.trace)
    ensures r.status.Ok? <==> PassesAll(o, 6 + 2 * |b.recipients|)
    ensures r.status.Ok? ==> r.trace == BatchSteps(b)
    ensures r.status.Error? ==> |r.trace| > 0 && r.status == Error(Last(r.trace))
    ensures r.after == Advance(o, |r.trace|)
  {
    var steps := BatchSteps(b);
    BatchStepsIo(b);
    AllFallibleCount(steps);
    ExecAllPass(o, steps);
    var r := Exec(o, steps);
    assert AllFallible(r.trace) && AllIo(r.trace) by {
      forall i | 0 <= i < |r.trace| ensures r.trace[i] == steps[i] {
      }
    }
    AllFallibleCount(r.trace);
    r
  }

  /** A call that fails ends the transaction right there: the trace is the
      transaction cut after the k-th call and that call's error is returned. */
  lemma SendBatchFailFast(o: Oracle, b: Builder, k: nat)
    requires k < 6 + 2 * |b.recipients|
    requires PassesAll(o, k) && !Passes(o, k)
    ensures SendBatch(o, b).trace == BatchSteps(b)[..k + 1]
    ensures SendBatch(o, b).status == Error(BatchSteps(b)[k])
  {
    BatchStepsIo(b);
    ExecCutsAt(o, BatchSteps(b), k);
  }

  /** The payload opens with "From: ", so it is neither DATA nor QUIT. */
  lemma PayloadIsNoCommand(b: Builder)
    ensures Payload(b)[0] == 'F'
    ensures Payload(b) != "DATA" && Payload(b) != "QUIT"
  {
    PayloadEnds(b);
    assert Payload(b)[0] == ("From: " + b.sender.address)[0];
  }

  /** The steps before DATA are MAIL FROM, RCPT TO and 250 replies: none of
      them is DATA, the payload or QUIT. */
  lemma BeforeDataAt(b: Builder, i: nat)
    requires i < 2 + 2 * |b.recipients|
    ensures var s := BatchSteps(b)[i];
            s != WriteLine("DATA") && s != WriteLine(Payload(b)) && s != WriteLine("QUIT")
  {
    var s := BatchSteps(b)[i];
    assert s == Read(250) || OpensWith(s, 'M') || OpensWith(s, 'R') by {
      BatchStepsAt(b, i);
      if i == 0 {
        assert MailLine(b.sender.address)[0] == 'M';
      } else if i >= 2 {
        RcptStepShape(b.recipients, i - 2);
      }
    }
    PayloadIsNoCommand(b);
    assert "DATA"[0] == 'D' && "QUIT"[0] == 'Q';
  }

  /** A written line that opens with the character ch. */
  predicate OpensWith(c: Call, ch: char) {
    c.WriteLine? && |c.line| > 0 && c.line[0] == ch
  }

  /** Each RCPT step is a RCPT TO line or a 250 reply. */
  lemma RcptStepShape(rs: seq<Recipient>, i: nat)
    requires i < 2 * |rs|
    ensures RcptSteps(rs)[i] == Read(250) || OpensWith(RcptSteps(rs)[i], 'R')
  {
    var j := i / 2;
    assert i == 2 * j || i == 2 * j + 1;
    RcptStepsAt(rs, j);
    assert RcptLine(rs[j].address)[0] == 'R';
  }

  /** A rejected recipient (its RCPT TO write or its 250 reply fails) aborts
      the transaction: neither DATA nor the payload is written. */
  lemma RejectedRecipientSendsNoData(o: Oracle, b: Builder, j: nat, k: nat)
    requires j < |b.recipients| && (k == 2 + 2 * j || k == 3 + 2 * j)
    requires PassesAll(o, k) && !Passes(o, k)
    ensures SendBatch(o, b).status.Error?
    ensures WriteLine("DATA") !in SendBatch(o, b).trace
    ensures WriteLine(Payload(b)) !in SendBatch(o, b).trace
  {
    SendBatchFailFast(o, b, k);
    var steps, m := BatchSteps(b), 2 + 2 * |b.recipients|;
    assert forall i :: 0 <= i < m ==> steps[i] != WriteLine("DATA") && steps[i] != WriteLine(Payload(b)) by {
      forall i | 0 <= i < m ensures steps[i] != WriteLine("DATA") && steps[i] != WriteLine(Payload(b)) {
        BeforeDataAt(b, i);
      }
    }
    assert WriteLine("DATA") !in steps[..m] && WriteLine(Payload(b)) !in steps[..m];
    assert steps[..k + 1] <= steps[..m];
    PrefixExcludes(steps[..k + 1], steps[..m], WriteLine("DATA"));
    PrefixExcludes(steps[..k + 1], steps[..m], WriteLine(Payload(b)));
  }

  /** Write lines that announce a recipient. */
  predicate IsRcpt(c: Call) {
    c.WriteLine? && |c.line| >= 10 && c.line[..10] == "RCPT TO: <"
  }

  function RcptCount(calls: seq<Call>): nat {
    if |calls| == 0 then 0 else (if IsRcpt(calls[0]) then 1 else 0) + RcptCount(calls[1..])
  }

  lemma {:induction false} RcptCountAppend(a: seq<Call>, b: seq<Call>)
    ensures RcptCount(a + b) == RcptCount(a) + RcptCount(b)
  {
    if |a| == 0 {
      assert a + b == b;
    } else {
      assert (a + b)[1..] == a[1..] + b;
      RcptCountAppend(a[1..], b);
    }
  }

  lemma {:induction false} RcptCountRcptSteps(rs: seq<Recipient>)
    ensures RcptCount(RcptSteps(rs)) == |rs|
    decreases |rs|
  {
    if |rs| > 0 {
      var steps := RcptSteps(rs);
      var first := [WriteLine(RcptLine(rs[0].address)), Read(250)];
      RcptCountAppend(first, RcptSteps(rs[1..]));
      RcptCountRcptSteps(rs[1..]);
      assert RcptLine(rs[0].address)[..10] == "RCPT TO: <";
      assert first[1..] == [Read(250)];
      assert RcptCount(first) == 1;
    }
  }

  lemma {:induction false} RcptCountNone(calls: seq<Call>)
    requires forall i :: 0 <= i < |calls| ==> !IsRcpt(calls[i])
    ensures RcptCount(calls) == 0
    decreases |calls|
  {
    if |calls| > 0 {
      RcptCountNone(calls[1..]);
    }
  }

  /** The transaction announces each recipient exactly once. */
  lemma RcptCountBatch(b: Builder)
    ensures RcptCount(BatchSteps(b)) == |b.recipients|
  {
    var head := [WriteLine(MailLine(b.sender.address)), Read(250)];
    assert !IsRcpt(head[0]) by {
      assert MailLine(b.sender.address)[0] == 'M';
    }
    DataHasNoRcpt(b);
    RcptCountOfParts(head, RcptSteps(b.recipients), DataSteps(b));
    RcptCountRcptSteps(b.recipients);
  }

  /** DATA, the payload and their replies announce no recipient. */
  lemma DataHasNoRcpt(b: Builder)
    ensures forall i :: 0 <= i < |DataSteps(b)| ==> !IsRcpt(DataSteps(b)[i])
  {
    PayloadIsNoCommand(b);
    assert "DATA"[0] == 'D';
  }

  lemma RcptCountOfParts(head: seq<Call>, middle: seq<Call>, tail: seq<Call>)
    requires forall i :: 0 <= i < |head| ==> !IsRcpt(head[i])
    requires forall i :: 0 <= i < |tail| ==> !IsRcpt(tail[i])
    ensures RcptCount(head + middle + tail) == RcptCount(middle)
  {
    RcptCountAppend(head, middle);
    RcptCountAppend(head + middle, tail);
    RcptCountNone(head);
    RcptCountNone(tail);
  }

  /** On success the transaction is exactly MAIL FROM, one RCPT TO per
      recipient in insertion order (and no other RCPT line), then DATA, the
      payload and their replies. */
  lemma SendBatchSuccessTrace(o: Oracle, b: Builder)
    requires PassesAll(o, 6 + 2 * |b.recipients|)
    ensures var t := SendBatch(o, b).trace;
            && SendBatch(o, b).status == Ok
            && |t| == 6 + 2 * |b.recipients|
            && t[0] == WriteLine("MAIL FROM: <" + b.sender.address + ">")
            && t[1] == Read(250)
            && (forall i :: 0 <= i < |b.recipients| ==>
                  t[2 + 2 * i] == WriteLine("RCPT TO: <" + b.recipients[i].address + ">") && t[3 + 2 * i] == Read(250))
            && t[2 + 2 * |b.recipients|..] == [WriteLine("DATA"), Read(354), WriteLine(Payload(b)), Read(250)]
            && RcptCount(t) == |b.recipients|
  {
    var t := SendBatch(o, b).trace;
    var n := |b.recipients|;
    assert t == BatchSteps(b);
    BatchStepsAt(b, 0);
    BatchStepsAt(b, 1);
    forall i | 0 <= i < n
      ensures t[2 + 2 * i] == WriteLine("RCPT TO: <" + b.recipients[i].address + ">") && t[3 + 2 * i] == Read(250)
    {
      BatchStepsAt(b, 2 + 2 * i);
      BatchStepsAt(b, 3 + 2 * i);
      RcptStepsAt(b.recipients, i);
    }
    assert t[2 + 2 * n..] == DataSteps(b);
    RcptCountBatch(b);
  }

  /** SendBatch never writes QUIT. */
  lemma SendBatchHasNoQuit(o: Oracle, b: Builder)
    ensures WriteLine("QUIT") !in SendBatch(o, b).trace
  {
    BatchStepsHaveNoQuit(b);
    PrefixExcludes(SendBatch(o, b).trace, BatchSteps(b), WriteLine("QUIT"));
  }

  /** No line of the transaction is QUIT, not even the payload. */
  lemma BatchStepsHaveNoQuit(b: Builder)
    ensures WriteLine("QUIT") !in BatchSteps(b)
  {
    var steps := BatchSteps(b);
    var n := |b.recipients|;
    PayloadIsNoCommand(b);
    forall i | 0 <= i < |steps| ensures steps[i] != WriteLine("QUIT") {
      if i < 2 + 2 * n {
        BeforeDataAt(b, i);
      } else {
        BatchStepsAt(b, i);
      }
    }
  }

  /** SendBatch never disconnects: it only writes and reads. */
  lemma SendBatchHasNoDisconnect(o: Oracle, b: Builder)
    ensures Disconnect !in SendBatch(o, b).trace
  {
    var t := SendBatch(o, b).trace;
    assert forall i :: 0 <= i < |t| ==> IsIo(t[i]);
  }

  /** What Send does once the session is open: the transaction, then a bare
      Disconnect if it failed, or QUIT (which disconnects) if it went
      through. Either way Disconnect is called exactly once, last. */
  function Finish(o: Oracle, b: Builder): (r: Run)
    ensures Count(r.trace, Disconnect) == 1 && Last(r.trace) == Disconnect
    ensures var s := SendBatch(o, b);
            s.status.Error? ==> r.trace == s.trace + [Disconnect] && r.status == s.status
    ensures var s := SendBatch(o, b);
            s.status.Ok? ==> r.trace == s.trace + Session.Quit(s.after).trace && r.status == Session.Quit(s.after).status
  {
    SendBatchHasNoDisconnect(o, b);
    Close(SendBatch(o, b))
  }

  /** Closes the session after a transaction that did not disconnect: a bare
      Disconnect after a failure, QUIT after a success. */
  function Close(s: Run): (r: Run)
    requires Disconnect !in s.trace
    ensures Count(r.trace, Disconnect) == 1 && Last(r.trace) == Disconnect
    ensures s.status.Error? ==> r.trace == s.trace + [Disconnect] && r.status == s.status
    ensures s.status.Ok? ==> r.trace == s.trace + Session.Quit(s.after).trace && r.status == Session.Quit(s.after).status
  {
    if s.status.Error? then
      CountAppend(s.trace, [Disconnect], Disconnect);
      Run(s.trace + [Disconnect], s.status, s.after)
    else
      var q := Session.Quit(s.after);
      CountAppend(s.trace, q.trace, Disconnect);
      Run(s.trace + q.trace, q.status, q.after)
  }

  /** QUIT is written exactly when the transaction went through. */
  lemma FinishQuits(o: Oracle, b: Builder)
    ensures WriteLine("QUIT") in Finish(o, b).trace <==> PassesAll(o, 6 + 2 * |b.recipients|)
  {
    var s := SendBatch(o, b);
    SendBatchHasNoQuit(o, b);
    if s.status.Ok? {
      assert Session.Quit(s.after).trace[0] == WriteLine("QUIT");
    }
  }

  /** Finish succeeds exactly when the transaction and QUIT with its 221
      reply all succeed: 8 + 2n outcomes. */
  lemma FinishStatus(o: Oracle, b: Builder)
    ensures Finish(o, b).status.Ok? <==> PassesAll(o, 8 + 2 * |b.recipients|)
  {
    var s := SendBatch(o, b);
    QuitAfter(o, s, 6 + 2 * |b.recipients|);
  }

  /** A run that needed the first n outcomes, followed by QUIT on the oracle
      it left, succeeds exactly when the first n + 2 outcomes are successes. */
  lemma QuitAfter(o: Oracle, s: Run, n: nat)
    requires s.status.Ok? <==> PassesAll(o, n)
    requires s.status.Ok? ==> s.after == Advance(o, n)
    ensures s.status.Ok? && Session.Quit(s.after).status.Ok? <==> PassesAll(o, n + 2)
  {
    AdvancePasses(o, n, 2);
    if s.status.Ok? {
      assert PassesAll(s.after, 2) <==> Passes(s.after, 0) && Passes(s.after, 1);
    }
  }

  /** The outcomes Send needs: 11 for the session, 6 + 2n for the
      transaction, 2 for QUIT and its reply. */
  function SendOutcomes(b: Builder): nat {
    19 + 2 * |b.recipients|
  }

  /** Connect, send one message, and close the session. A Connect failure is
      returned as it is (Connect has already disconnected, unless the TCP
      connect itself failed), so Disconnect is called exactly once whenever
      the TCP connect succeeded. */
  function Send(o: Oracle, b: Builder): (r: Run)
    ensures Count(r.trace, Disconnect) == (if Passes(o, 0) then 1 else 0)
    ensures Passes(o, 0) ==> Last(r.trace) == Disconnect
    ensures !PassesAll(o, 11) ==> r == Session.Connect(o, b.username, b.password)
    ensures var s := SendBatch(Advance(o, 11), b);
            PassesAll(o, 11) && s.status.Error? ==>
              && r.status == s.status
              && r.trace == Session.Connect(o, b.username, b.password).trace + s.trace + [Disconnect]
    ensures var s := SendBatch(Advance(o, 11), b);
            PassesAll(o, 11) && s.status.Ok? ==>
              && r.status == Session.Quit(s.after).status
              && r.trace == Session.Connect(o, b.username, b.password).trace + s.trace + Session.Quit(s.after).trace
  {
    var c := Session.Connect(o, b.username, b.password);
    assert Passes(o, 0) && c.status.Error? ==> Last(c.trace) == Disconnect by {
      if Passes(o, 0) && c.status.Error? {
        Session.ConnectFailure(o, b.username, b.password);
      }
    }
    AppendAssoc(c.trace, SendBatch(Advance(o, 11), b).trace, [Disconnect]);
    AppendAssoc(c.trace, SendBatch(Advance(o, 11), b).trace, Session.Quit(SendBatch(Advance(o, 11), b).after).trace);
    AfterConnect(c, b)
  }

  /** Send once Connect has returned: a failed Connect is passed up as it is;
      after a successful one the message is sent and the session closed. */
  function AfterConnect(c: Run, b: Builder): (r: Run)
    ensures c.status.Error? ==> r == c
    ensures c.status.Ok? ==> Count(r.trace, Disconnect) == Count(c.trace, Disconnect) + 1
    ensures c.status.Ok? ==> Last(r.trace) == Disconnect
    ensures c.status.Ok? ==> r.trace == c.trace + Finish(c.after, b).trace && r.status == Finish(c.after, b).status
  {
    if c.status.Error? then
      c
    else
      var f := Finish(c.after, b);
      CountAppend(c.trace, f.trace, Disconnect);
      Run(c.trace + f.trace, f.status, f.after)
  }

  /** QUIT is written exactly when the session opened and the transaction
      went through: 11 + 6 + 2n outcomes. */
  lemma SendQuits(o: Oracle, b: Builder)
    ensures WriteLine("QUIT") in Send(o, b).trace <==> PassesAll(o, 17 + 2 * |b.recipients|)
  {
    var c := Session.Connect(o, b.username, b.password);
    Session.ConnectHasNoQuit(o, b.username, b.password);
    AdvancePasses(o, 11, 6 + 2 * |b.recipients|);
    if c.status.Ok? {
      FinishQuits(c.after, b);
    }
  }

  /** Send succeeds exactly when all the outcomes it needs are successes. */
  lemma SendStatus(o: Oracle, b: Builder)
    ensures Send(o, b).status.Ok? <==> PassesAll(o, SendOutcomes(b))
  {
    var c := Session.Connect(o, b.username, b.password);
    AdvancePasses(o, 11, 8 + 2 * |b.recipients|);
    if c.status.Ok? {
      FinishStatus(c.after, b);
    }
  }

  /** With every outcome a success, Send makes exactly these calls: the
      session handshake, the transaction, QUIT and its reply, one Disconnect. */
  lemma SendSuccessTrace(o: Oracle, b: Builder)
    requires PassesAll(o, SendOutcomes(b))
    ensures Send(o, b).status == Ok
    ensures Send(o, b).trace ==
              [Call.Connect] + Session.HandshakeSteps(o.hostname, b.username, b.password)
              + BatchSteps(b) + [WriteLine("QUIT"), Read(221), Disconnect]
  {
    SendStatus(o, b);
    var n := 6 + 2 * |b.recipients|;
    var c := Session.Connect(o, b.username, b.password);
    assert c.status.Ok? && c.after == Advance(o, 11) && PassesAll(c.after, n + 2) by {
      AdvancePasses(o, 11, n + 2);
    }
    var s := SendBatch(c.after, b);
    assert s.status.Ok? && s.after == Advance(c.after, n) && Passes(s.after, 0) by {
      AdvancePasses(c.after, n, 2);
    }
    AppendAssoc(c.trace, BatchSteps(b), [WriteLine("QUIT"), Read(221), Disconnect]);
  }
}
